=== FILE: README.md ===
# Comment-preserving YAML configuration files (MCShared)

MCShared is a library for Bukkit plugins. Bukkit's YAML library drops
comments when it loads a file and writes it back. MCShared works around this
with a small shim, and this project models that shim in Dafny and proves
properties of the model.

**FileManager.**
- Before parsing, it rewrites every comment line (a line starting with `#`)
  as an ordinary key/value line: `<PluginName>_COMMENT_<n>: <escaped text>`.
  - `n` counts the comments in file order.
  - The escaping spells `:`, `|`, `-` and space as `_COLON_`, `_VERT_`,
    `_HYPHEN_` and `_SPACE_`.
- After the library has written the configuration back to a string, it turns
  those lines back into comments. It also puts an empty line before every run
  of comments.

**CommentedYamlConfiguration.**
- It keeps the counter of comments.
- Its setters add new comments to the configuration map under fresh numbered
  keys.
- Loading a file resets the map and the counter.
- Every comment key in the map is numbered below the counter
  (`CounterAhead`). The setters and `getConfigurationSection` keep this,
  with one caveat: a caller may pass a comment key the counter has not
  reached as a path. The next comment would then overwrite that entry
  (`SetUnderNextKeyBreaksCounterAhead`, `SectionUnderNextKeyBreaksCounterAhead`).

**Modules.**
- `Wrappers` (`wrappers.dfy`): `Option` stands for a Java reference that may
  be null, and `Result` and `Error` for an exception: an invalid file name in
  the constructor, or text the YAML library rejects on load.
- `Strings` (`strings.dfy`): the `java.lang.String` operations the shim uses.
  - `replace` is literal, left to right, and never rescans its replacement.
  - `replaceFirst` with a literal pattern, and `indexOf` with its -1.
  - `split("\n")` follows Java's rules. A string without a newline comes back
    whole; otherwise trailing empty segments are dropped.
  - A non-negative `int` is rendered as a decimal string.
- `CommentCodec` (`comment_codec.dfy`):
  - the comment keys;
  - the escaping and unescaping chains, written exactly as the Java code
    chains its `replace` calls, with a per-character reference definition;
  - the round trip and its counterexamples.
- `ConfigFiles` (`config_files.dfy`): `FileManager`, meaning the path it
  builds, the rework loop with its comment count, and the regeneration of
  comments.
- `CommentedYaml` (`commented_yaml.dfy`): `CommentedYamlConfiguration`.
  - The YAML map is modelled as a flat `map<string, Value>`.
  - `set(path, null)` is `Put` with `None`, which removes the key.
  - The YAML parse performed on load is a function parameter.

**The round trip.**
- Escaping and then unescaping gives back comment text that holds no `_` and
  no upper-case letter (`UnescapeInvertsEscape`).
- Neither half of that condition can be dropped:
  - `UnderscoreBreaksRoundTrip`: the text `_COLON_` comes back as `:`.
  - `UpperCaseBreaksRoundTrip`: the text ` COLON ` escapes to
    `_SPACE_COLON_SPACE_`. The unescaping replaces `_COLON_` first, so the
    result is `_SPACE:SPACE_`.
- For a whole file (`RegenerateReworked`): if the YAML library hands back
  exactly the reworked text, the regenerated file is the original one with
  the decoder's blank-line layout applied. This holds when:
  - the plugin name holds no `:` and no newline;
  - comment text is plain;
  - no ordinary line already starts with `<PluginName>_COMMENT`;
  - no line holds a newline, which holds for the lines `readLine` returns;
  - the file has at least one line, and its last line is not empty.

  An empty file is excluded because the reworked text is then "", which
  splits into one empty segment and regenerates as "\n" (`RegenerateEmpty`).
  A file ending in an empty line is excluded because `split` drops trailing
  empty segments.

## Model

| member | source | states |
|---|---|---|
| ConfigFiles.DataPath | src/main/java/com/hm/mcshared/file/FileManager.java:56-60 | the path is the data folder, then the file name with every '/' turned into the separator; a separator goes in between only when the name does not start with '/' |
| ConfigFiles.NewFileManager | src/main/java/com/hm/mcshared/file/FileManager.java:53-61 | the manager keeps the built path and the resource name, and has counted no comments yet |
| Strings.ReplaceCharPointwise | src/main/java/com/hm/mcshared/file/FileManager.java:57 | replacing one character by another keeps the length and changes exactly the occurrences of that character |
| Strings.Replace | src/main/java/com/hm/mcshared/file/FileManager.java:101-102 | a single-character target that does not occur leaves the text unchanged; replacing a single character by text without it leaves no occurrence behind |
| Strings.ReplaceAbsent | src/main/java/com/hm/mcshared/file/FileManager.java:175-176 | a target whose first character does not occur in the text leaves the text unchanged |
| Strings.ReplaceSkipsPrefix | src/main/java/com/hm/mcshared/file/FileManager.java:101-102 | a prefix in which no occurrence of the target starts is copied unchanged, and the replacement continues after it |
| Strings.ReplaceFirst | src/main/java/com/hm/mcshared/file/FileManager.java:103 | a text without the pattern is unchanged; a text starting with it has that first occurrence replaced |
| Strings.ReplaceFirstAtIndexOf | src/main/java/com/hm/mcshared/file/FileManager.java:103 | when the pattern occurs, exactly the occurrence `indexOf` reports is replaced and the text before and after it is copied |
| Strings.ReplaceFirstAt | src/main/java/com/hm/mcshared/file/FileManager.java:103 | the occurrence at a position before which no occurrence starts is the one replaced |
| Strings.ContainsAt | src/main/java/com/hm/mcshared/file/FileManager.java:175 | an occurrence at any position means the text contains the pattern |
| Strings.IndexOf | src/main/java/com/hm/mcshared/file/FileManager.java:175 | the result is -1 exactly when the pattern does not occur; otherwise it is the first position where it occurs |
| Strings.IndexOfSeparator | src/main/java/com/hm/mcshared/file/FileManager.java:175 | in `key: text` with a colon-free key, the first ": " is the one right after the key |
| Strings.SplitAll | src/main/java/com/hm/mcshared/file/FileManager.java:170 | the segments hold no delimiter and joined back with it give the string |
| Strings.JavaSplit | src/main/java/com/hm/mcshared/file/FileManager.java:170 | no segment holds the delimiter; a string without it comes back whole; otherwise the segments are the leading segments between delimiters, the last one not empty, and only empty segments are dropped after them |
| Strings.SplitTerminated | src/main/java/com/hm/mcshared/file/FileManager.java:170 | splitting newline-terminated lines at "\n" gives the lines back, when none holds a newline and the last is not empty |
| Strings.NatToStringInjective | src/main/java/com/hm/mcshared/file/FileManager.java:103 | distinct counters are rendered as distinct decimal strings |
| Strings.ParseNatToString | src/main/java/com/hm/mcshared/file/FileManager.java:103 | the decimal rendering of the counter reads back as the counter |
| CommentCodec.CommentKey | src/main/java/com/hm/mcshared/file/FileManager.java:103 | the key starts with `<Name>_COMMENT_`, and holds a ':' or a newline only when the name does |
| CommentCodec.CommentKeyInjective | src/main/java/com/hm/mcshared/file/CommentedYamlConfiguration.java:106 | distinct comment numbers give distinct keys `<Name>_COMMENT_<n>` |
| CommentCodec.CommentKeyPrefixUnique | src/main/java/com/hm/mcshared/file/FileManager.java:103 | with a colon-free name, two comment keys that each start a line followed by ':' carry the same number |
| CommentCodec.Escape | src/main/java/com/hm/mcshared/file/FileManager.java:101-102 | text holding none of ':', '\|', '-', ' ' passes the escaping chain unchanged |
| CommentCodec.Unescape | src/main/java/com/hm/mcshared/file/FileManager.java:175-176 | text without '_' passes the unescaping chain unchanged |
| CommentCodec.EscapeByChar | src/main/java/com/hm/mcshared/file/FileManager.java:101-102 | the escaped text is at least as long as the text, holds none of ':', '\|', '-', ' ', and gains no characters except '_' and capitals |
| CommentCodec.EscapeIsPerCharacter | src/main/java/com/hm/mcshared/file/FileManager.java:101-102 | the chain of four replace calls equals escaping each character on its own |
| CommentCodec.EscapeRemovesForbidden | src/main/java/com/hm/mcshared/file/FileManager.java:101-102 | the output of the escaping chain holds none of ':', '\|', '-', ' ' |
| CommentCodec.UnescapeKeepsHash | src/main/java/com/hm/mcshared/file/FileManager.java:175-176 | the unescaping chain keeps the leading '#' of a comment |
| CommentCodec.UnescapeInvertsEscape | src/main/java/com/hm/mcshared/file/FileManager.java:175-176 | the unescaping chain undoes the escaping chain for text with no '_' and no upper-case letter |
| CommentCodec.UnderscoreBreaksRoundTrip | src/main/java/com/hm/mcshared/file/FileManager.java:175-176 | the text "_COLON_" is left alone by the escaping and unescaped to ":", so the round trip fails |
| CommentCodec.UpperCaseBreaksRoundTrip | src/main/java/com/hm/mcshared/file/FileManager.java:175-176 | " COLON " escapes to "_SPACE_COLON_SPACE_", which unescapes to "_SPACE:SPACE_", so the round trip fails without any '_' in the text |
| ConfigFiles.CountComments | src/main/java/com/hm/mcshared/file/FileManager.java:120-122 | the count of comment lines is at most the number of lines |
| ConfigFiles.CountCommentsExtremes | src/main/java/com/hm/mcshared/file/FileManager.java:95-104 | the count is 0 exactly when no line starts with '#', and equals the number of lines exactly when every line does |
| ConfigFiles.CountCommentsAppend | src/main/java/com/hm/mcshared/file/FileManager.java:95-104 | the count of a file in two parts is the sum of the parts' counts |
| ConfigFiles.ReworkLine | src/main/java/com/hm/mcshared/file/FileManager.java:98-107 | the Java rewrite of one line (escape the whole line, then replace its first '#' by the key and ": ") is the key, ": " and the per-character escape of the text after '#'; other lines are unchanged |
| ConfigFiles.ReworkComments | src/main/java/com/hm/mcshared/file/FileManager.java:91-122 | after the loop, the counter is the number of '#' lines, restarted from 0, and the text is every reworked line followed by "\n", in order |
| ConfigFiles.ReworkedLineByLine | src/main/java/com/hm/mcshared/file/FileManager.java:97-109 | one reworked line per input line; an ordinary line is copied; the j-th line, if a comment, becomes the key numbered by the comments before it, ": " and its escaped text |
| ConfigFiles.ReworkAppend | src/main/java/com/hm/mcshared/file/FileManager.java:95-104 | reworking a file in two parts numbers the second part's comments after the first part's |
| ConfigFiles.CommentNumbersIncrease | src/main/java/com/hm/mcshared/file/FileManager.java:104 | a later comment gets a larger number, and every number is below the final count |
| ConfigFiles.DecodeComment | src/main/java/com/hm/mcshared/file/FileManager.java:175-176 | a decoded line is always a comment line |
| ConfigFiles.DecodeAfterKey | src/main/java/com/hm/mcshared/file/FileManager.java:175-176 | decoding `key: text` with a colon-free key unescapes "#" followed by exactly the text |
| ConfigFiles.DecodeLines | src/main/java/com/hm/mcshared/file/FileManager.java:172-189 | the decoder emits between one and two output lines per input line in total: at least as many lines as it reads and at most twice as many |
| ConfigFiles.DecodeLinesByLine | src/main/java/com/hm/mcshared/file/FileManager.java:169-188 | every line without the comment marker is copied as it is, in order; a disguised line is decoded, preceded by an empty line exactly when the line before it (for the first line, the initial false flag) was not disguised |
| ConfigFiles.Regenerate | src/main/java/com/hm/mcshared/file/FileManager.java:168-191 | the regenerated text is empty or ends in a line break; what it holds is given by `RegenerateByLine` (block per segment), `RegenerateEmpty` (the empty string) and `RegenerateReworked` (the round trip) |
| ConfigFiles.RegenerateByLine | src/main/java/com/hm/mcshared/file/FileManager.java:168-191 | the regenerated text is the string split at "\n" with Java's rules, each segment replaced by its block (a copied line, or a decoded comment with an empty line before it when the previous segment was not one), every output line terminated by "\n" |
| ConfigFiles.RegenerateEmpty | src/main/java/com/hm/mcshared/file/FileManager.java:170 | an empty configuration string regenerates as a single empty line |
| ConfigFiles.DecodeEncodedComment | src/main/java/com/hm/mcshared/file/FileManager.java:173-176 | a reworked comment line with plain text is recognised as disguised and decodes to the original line |
| ConfigFiles.DecodeReworked | src/main/java/com/hm/mcshared/file/FileManager.java:172-189 | decoding the reworked lines gives the original lines with an empty line before each run of comments |
| ConfigFiles.RegenerateReworked | src/main/java/com/hm/mcshared/file/FileManager.java:168-191 | regenerating the reworked text gives back the file in the decoder's layout, under the conditions listed above |
| ConfigFiles.DeclaredCommentBelowCount | src/main/java/com/hm/mcshared/file/FileManager.java:95-104 | every comment key some reworked line declares is numbered below the file's comment count |
| CommentedYaml.Put | src/main/java/com/hm/mcshared/file/CommentedYamlConfiguration.java:110 | setting a value stores it under the path, setting null removes the path, and no other key changes |
| CommentedYaml.NewConfiguration | src/main/java/com/hm/mcshared/file/CommentedYamlConfiguration.java:47-54 | the constructor fails with an invalid-file-name error exactly when the name is null or empty; otherwise the configuration is empty, its counter is 0, and its manager is built from the same name |
| CommentedYaml.GetConfigurationSection | src/main/java/com/hm/mcshared/file/CommentedYamlConfiguration.java:74-77 | afterwards a section exists at the path; an existing section is returned unchanged; nothing else changes |
| CommentedYaml.GetConfigurationSectionKeepsCounterAhead | src/main/java/com/hm/mcshared/file/CommentedYamlConfiguration.java:74-77 | creating a section keeps every comment key in the map below the counter, unless the path is a comment key the counter has not reached |
| CommentedYaml.SectionUnderNextKeyBreaksCounterAhead | src/main/java/com/hm/mcshared/file/CommentedYamlConfiguration.java:74-77 | creating a section under the next comment key breaks that invariant, and the next comment would overwrite the section |
| CommentedYaml.GetConfigurationSectionIdempotent | src/main/java/com/hm/mcshared/file/CommentedYamlConfiguration.java:74-77 | asking for the same section twice creates it at most once |
| CommentedYaml.GetList | src/main/java/com/hm/mcshared/file/CommentedYamlConfiguration.java:87-93 | the result is the stored list when there is one, and the empty list otherwise |
| CommentedYaml.AddComment | src/main/java/com/hm/mcshared/file/CommentedYamlConfiguration.java:106-108 | the escaped comment is stored under the key of the current counter, the counter goes up by one, and every other key is unchanged |
| CommentedYaml.AddCommentEscapes | src/main/java/com/hm/mcshared/file/CommentedYamlConfiguration.java:106-107 | the stored text is the comment sent through the Java chain of replace calls |
| CommentedYaml.AddComments | src/main/java/com/hm/mcshared/file/CommentedYamlConfiguration.java:121-126 | k comments raise the counter by exactly k |
| CommentedYaml.AddCommentsStores | src/main/java/com/hm/mcshared/file/CommentedYamlConfiguration.java:121-126 | the j-th comment ends up, escaped, under the key numbered by the old counter plus j |
| CommentedYaml.AddCommentsKeeps | src/main/java/com/hm/mcshared/file/CommentedYamlConfiguration.java:121-126 | a key not among those handed out keeps its value, or stays absent |
| CommentedYaml.AddCommentsAppend | src/main/java/com/hm/mcshared/file/CommentedYamlConfiguration.java:121-126 | feeding comments in two batches is the same as feeding them in one |
| CommentedYaml.SetWithComments | src/main/java/com/hm/mcshared/file/CommentedYamlConfiguration.java:120-128 | comments get consecutive keys from the old counter on, in argument order; the counter rises by their number; the path is then set; no other key changes |
| CommentedYaml.SetWithComment | src/main/java/com/hm/mcshared/file/CommentedYamlConfiguration.java:102-111 | a present comment is stored under the old counter's key and the counter rises by one; a null comment leaves the counter alone; the path is then set; no other key changes |
| CommentedYaml.SingleCommentIsOneElementList | src/main/java/com/hm/mcshared/file/CommentedYamlConfiguration.java:102-128 | the single-comment setter is the many-comment setter given zero or one comment |
| CommentedYaml.GetListAfterSet | src/main/java/com/hm/mcshared/file/CommentedYamlConfiguration.java:87-93 | a list set under a path is what `getList` reads back |
| CommentedYaml.StoredCommentDecodes | src/main/java/com/hm/mcshared/file/CommentedYamlConfiguration.java:106-107 | a stored comment, written out as `key: text`, is recognised by the decoder and decodes to the original comment line |
| CommentedYaml.SetWithCommentsKeepsCounterAhead | src/main/java/com/hm/mcshared/file/CommentedYamlConfiguration.java:120-128 | the setters keep every comment key in the map below the counter, unless the caller itself sets a comment key the counter has not reached; `getConfigurationSection` has the same caveat (`GetConfigurationSectionKeepsCounterAhead`) |
| CommentedYaml.SetUnderNextKeyBreaksCounterAhead | src/main/java/com/hm/mcshared/file/CommentedYamlConfiguration.java:102-111 | setting a value under the next comment key breaks that invariant |
| CommentedYaml.LoadConfiguration | src/main/java/com/hm/mcshared/file/CommentedYamlConfiguration.java:136-141 | the manager recounts the file's comments either way; if the reworked text parses, the map becomes its entries and the counter the file's comment count; if it does not, an invalid-configuration error is reported, the map is left cleared and the old counter is kept; after a successful parse where the plugin name has no ':', no ordinary line looks like a disguised comment, and every comment key reported is declared by a reworked line, every comment key in the map is numbered below the counter |

## Left out

- `PacketSender` and everything outside `FileManager` and
  `CommentedYamlConfiguration`. That code is reflection into server
  internals and network sends.
- File and stream I/O:
  - `backupFile` and its timestamp check;
  - `createConfigurationFileIfNotExists`;
  - the writer in `saveConfiguration`;
  - UTF-8 decoding;
  - `BufferedReader.readLine`'s treatment of `\r`.

  A file is the sequence of lines the reader returns.
- Bukkit's `YamlConfiguration`: parsing, dumping, nested paths in `set`, and
  value quoting. It is an external library.
  - The setters see a flat map, and the parse on load is a parameter.
  - The decoder is given the dumped string as it is.
  - `getShallowKeys` is not modelled, because its result is whatever the
    library reports.
- `saveConfiguration` and `backupConfiguration` of the configuration. They
  only hand strings to the file manager, or copy files.
- Java `File` path normalisation. `DataPath` is the string handed to
  `new File(...)`.
- `ReworkLine`: `replaceFirst` treats its replacement as a regular-expression
  replacement. The model assumes a plugin name without `$` or `\`, and makes
  the call a literal substitution.
- `ReworkComments`: the counter is a Java `int`. Its wrap-around after 2^31
  comments is not modelled.
- `SetWithComments`: a null element in the varargs array, on which the Java
  code throws, is not modelled. The comments are a sequence
  of strings.
- `GetConfigurationSection`: Bukkit's default sections are not modelled. An
  entry that is not a section is treated as missing, and it is replaced by a
  new section.
- `SetWithComments`, `SetWithComment`, `AddComment`: the configuration's
  comment counter is a Java `int`. Its wrap-around after 2^31 comments is not
  modelled; the counter is a `nat`, and so is the one `CounterAhead` compares
  against.
- `GetList`: Bukkit's default lists are not modelled. When the path holds no
  list, Bukkit would return a default list if one is configured; the model
  returns the empty list.
- `GetList`: the unchecked cast of Bukkit's list to `List<String>` is not
  modelled. Only a stored list of strings is returned.
- `UnescapeInvertsEscape`: the precondition, no `_` and no upper-case letter,
  is sufficient and not exact. Some texts outside it also survive the round
  trip.
- `LoadConfiguration`: on a parse failure the model assumes that the YAML
  library rejects the text before it adds anything to the map, so the map is
  left as `map.clear()` made it.
- `LoadConfiguration`: the counter invariant after loading is conditional. It
  holds when every comment key the parse reports is declared by a line of the
  reworked text. An ordinary line with a quoted key such as
  `"<Name>_COMMENT_0": x` would yield a comment key that no line declares,
  and a later setter would then overwrite its value. That is a property of the YAML library, which is not
  modelled.
- Logger output and `ChatColor` translation.

=== FILE: comment_codec.dfy ===
/**
  The disguise that lets a comment survive a pass through the YAML library:
  the characters YAML would treat specially are spelled out as upper-case
  tokens, and the tokens are turned back into characters on the way out.

  The escaping is written exactly as the Java code chains `String.replace`
  calls; `EscapeByChar` is a per-character reference definition of the same
  thing. The unescaping chain is not an inverse of the escaping in general:
  `UnescapeInvertsEscape` states a sufficient condition, and
  `UnderscoreBreaksRoundTrip` and `UpperCaseBreaksRoundTrip` show that
  neither half of that condition can be dropped.
 */
module CommentCodec {
  import opened Strings

  /** A line the Java code treats as a comment: it starts with '#'. */
  predicate IsComment(line: string) {
    |line| > 0 && line[0] == '#'
  }

  /** The characters the escaping removes from a comment. */
  predicate Forbidden(c: char) {
    c == ':' || c == '|' || c == '-' || c == ' '
  }

  predicate IsUpper(c: char) {
    'A' <= c <= 'Z'
  }

  /** A character that can never be part of an escape token. */
  predicate Plain(c: char) {
    c != '_' && !IsUpper(c)
  }

  predicate PlainText(s: string) {
    forall i :: 0 <= i < |s| ==> Plain(s[i])
  }

  /** What marks a line handed back by the YAML library as a disguised comment. */
  function CommentMarker(name: string): string {
    name + "_COMMENT"
  }

  /** The key under which the comment numbered `n` of plugin `name` is disguised. */
  function CommentKey(name: string, n: nat): (k: string)
    ensures StartsWith(k, CommentMarker(name))
    ensures StartsWith(k, CommentMarker(name) + "_")
    ensures ':' !in name ==> ':' !in k
    ensures '\n' !in name ==> '\n' !in k
  {
    var k := name + "_COMMENT_" + NatToString(n);
    assert k[..|CommentMarker(name)|] == CommentMarker(name);
    assert k[..|CommentMarker(name) + "_"|] == CommentMarker(name) + "_";
    k
  }

  /** Distinct comment numbers give distinct keys. */
  lemma CommentKeyInjective(name: string, i: nat, j: nat)
    ensures CommentKey(name, i) == CommentKey(name, j) ==> i == j
  {
    var p := name + "_COMMENT_";
    if CommentKey(name, i) == CommentKey(name, j) {
      assert CommentKey(name, i)[|p|..] == NatToString(i);
      assert CommentKey(name, j)[|p|..] == NatToString(j);
      NatToStringInjective(i, j);
    }
  }

  /**
    Two comment keys that each begin `s` followed by ':' are the same key,
    when the plugin name holds no colon: the colon ends both at one place.
   */
  lemma CommentKeyPrefixUnique(s: string, name: string, i: nat, j: nat)
    requires ':' !in name
    requires StartsWith(s, CommentKey(name, i) + ":")
    requires StartsWith(s, CommentKey(name, j) + ":")
    ensures i == j
  {
    var x, y := CommentKey(name, i), CommentKey(name, j);
    assert s[|x|] == ':' && s[|y|] == ':';
    assert x == s[..|x|] == y;
    CommentKeyInjective(name, i, j);
  }

  /** The escaping of comment text, as the chain of replacements the Java code performs. */
  function Escape(s: string): (r: string)
    ensures ':' !in s && '|' !in s && '-' !in s && ' ' !in s ==> r == s
  {
    Replace(Replace(Replace(Replace(s, ":", "_COLON_"), "|", "_VERT_"), "-", "_HYPHEN_"), " ", "_SPACE_")
  }

  /** The unescaping of comment text, as the chain of replacements the Java code performs. */
  function Unescape(s: string): (r: string)
    ensures '_' !in s ==> r == s
  {
    assert '_' !in s ==> Replace(s, "_COLON_", ":") == s by {
      if '_' !in s { ReplaceAbsent(s, "_COLON_", ":"); }
    }
    assert '_' !in s ==> Replace(s, "_HYPHEN_", "-") == s by {
      if '_' !in s { ReplaceAbsent(s, "_HYPHEN_", "-"); }
    }
    assert '_' !in s ==> Replace(s, "_VERT_", "|") == s by {
      if '_' !in s { ReplaceAbsent(s, "_VERT_", "|"); }
    }
    assert '_' !in s ==> Replace(s, "_SPACE_", " ") == s by {
      if '_' !in s { ReplaceAbsent(s, "_SPACE_", " "); }
    }
    Replace(Replace(Replace(Replace(s, "_COLON_", ":"), "_HYPHEN_", "-"), "_VERT_", "|"), "_SPACE_", " ")
  }

  /** Unescaping keeps the leading '#' of a comment. */
  lemma UnescapeKeepsHash(s: string)
    requires IsComment(s)
    ensures IsComment(Unescape(s))
  {
    var r1 := Replace(s, "_COLON_", ":");
    ReplaceKeepsHead(s, "_COLON_", ":");
    var r2 := Replace(r1, "_HYPHEN_", "-");
    ReplaceKeepsHead(r1, "_HYPHEN_", "-");
    var r3 := Replace(r2, "_VERT_", "|");
    ReplaceKeepsHead(r2, "_VERT_", "|");
    ReplaceKeepsHead(r3, "_SPACE_", " ");
  }

  /** What one character of comment text becomes. */
  function EscapeChar(c: char): string {
    if c == ':' then "_COLON_"
    else if c == '|' then "_VERT_"
    else if c == '-' then "_HYPHEN_"
    else if c == ' ' then "_SPACE_"
    else [c]
  }

  /** Reference definition of the escaping: each character on its own. */
  function EscapeByChar(s: string): (r: string)
    ensures forall i :: 0 <= i < |r| ==> !Forbidden(r[i])
    ensures forall c :: c in r && c !in s ==> c == '_' || IsUpper(c)
    ensures |s| <= |r|
    decreases |s|
  {
    if s == [] then [] else EscapeCharShape(s[0]); EscapeChar(s[0]) + EscapeByChar(s[1..])
  }

  /** What one character becomes holds no character to escape, and nothing new but '_' and capitals. */
  lemma EscapeCharShape(c: char)
    ensures forall i :: 0 <= i < |EscapeChar(c)| ==> !Forbidden(EscapeChar(c)[i])
    ensures forall x :: x in EscapeChar(c) && x != c ==> x == '_' || IsUpper(x)
  {
  }

  lemma EscapeByCharCons(c: char, s: string)
    ensures EscapeByChar([c] + s) == EscapeChar(c) + EscapeByChar(s)
  {
    assert ([c] + s)[1..] == s;
  }

  /** Replacing a whole string that equals the target gives the replacement. */
  lemma ReplaceWhole(pat: string, rep: string)
    requires pat != []
    ensures Replace(pat, pat, rep) == rep
  {
    assert StartsWith(pat, pat);
    assert pat[|pat|..] == [];
  }

  lemma EscapeColon(c: char)
    requires c == ':'
    ensures Escape([c]) == "_COLON_"
  {
    var r1 := Replace([c], ":", "_COLON_");
    ReplaceWhole([c], "_COLON_");
    assert r1 == "_COLON_";
    EscapeTail(r1, 1);
  }

  lemma EscapeVert(c: char)
    requires c == '|'
    ensures Escape([c]) == "_VERT_"
  {
    var r1 := Replace([c], ":", "_COLON_");
    assert r1 == [c];
    var r2 := Replace(r1, "|", "_VERT_");
    ReplaceWhole([c], "_VERT_");
    assert r2 == "_VERT_";
    EscapeTail(r2, 2);
  }

  lemma EscapeHyphen(c: char)
    requires c == '-'
    ensures Escape([c]) == "_HYPHEN_"
  {
    var r2 := Replace(Replace([c], ":", "_COLON_"), "|", "_VERT_");
    assert r2 == [c];
    var r3 := Replace(r2, "-", "_HYPHEN_");
    ReplaceWhole([c], "_HYPHEN_");
    assert r3 == "_HYPHEN_";
    EscapeTail(r3, 3);
  }

  lemma EscapeSpace(c: char)
    requires c == ' '
    ensures Escape([c]) == "_SPACE_"
  {
    var r3 := Replace(Replace(Replace([c], ":", "_COLON_"), "|", "_VERT_"), "-", "_HYPHEN_");
    assert r3 == [c];
    ReplaceWhole([c], "_SPACE_");
  }

  /** The replacements after the `done`-th leave text of upper-case letters and underscores alone. */
  lemma EscapeTail(t: string, done: nat)
    requires 1 <= done <= 3
    requires forall i :: 0 <= i < |t| ==> t[i] == '_' || IsUpper(t[i])
    ensures done == 1 ==> Replace(Replace(Replace(t, "|", "_VERT_"), "-", "_HYPHEN_"), " ", "_SPACE_") == t
    ensures done == 2 ==> Replace(Replace(t, "-", "_HYPHEN_"), " ", "_SPACE_") == t
    ensures done == 3 ==> Replace(t, " ", "_SPACE_") == t
  {
    assert '|' !in t && '-' !in t && ' ' !in t;
  }

  /** Escaping a single character with the chain gives `EscapeChar`. */
  lemma EscapeOneChar(c: char)
    ensures Escape([c]) == EscapeChar(c)
  {
    if c == ':' {
      EscapeColon(c);
    } else if c == '|' {
      EscapeVert(c);
    } else if c == '-' {
      EscapeHyphen(c);
    } else if c == ' ' {
      EscapeSpace(c);
    } else {
      assert !Forbidden(c);
    }
  }

  /**
    The chained replacements behave as a per-character substitution: no
    replacement text contains a character that a later replacement targets.
   */
  lemma {:induction false} EscapeIsPerCharacter(s: string)
    ensures Escape(s) == EscapeByChar(s)
    decreases |s|
  {
    if s != [] {
      var c, t := s[0], s[1..];
      assert s == [c] + t;
      ReplaceCharAppend([c], t, ':', "_COLON_");
      var a1, b1 := Replace([c], ":", "_COLON_"), Replace(t, ":", "_COLON_");
      ReplaceCharAppend(a1, b1, '|', "_VERT_");
      var a2, b2 := Replace(a1, "|", "_VERT_"), Replace(b1, "|", "_VERT_");
      ReplaceCharAppend(a2, b2, '-', "_HYPHEN_");
      var a3, b3 := Replace(a2, "-", "_HYPHEN_"), Replace(b2, "-", "_HYPHEN_");
      ReplaceCharAppend(a3, b3, ' ', "_SPACE_");
      assert Escape(s) == Escape([c]) + Escape(t);
      EscapeOneChar(c);
      EscapeIsPerCharacter(t);
    }
  }

  /** The escaped text holds none of ':', '|', '-' or ' '. */
  lemma EscapeRemovesForbidden(s: string)
    ensures forall i :: 0 <= i < |Escape(s)| ==> !Forbidden(Escape(s)[i])
  {
    EscapeIsPerCharacter(s);
  }

  // ---------------------------------------------------------------------
  // The round trip, argued over "pieces": escaped text is a concatenation
  // of single plain characters and whole escape tokens.

  predicate IsToken(p: string) {
    p == "_COLON_" || p == "_VERT_" || p == "_HYPHEN_" || p == "_SPACE_"
  }

  predicate WellFormedPiece(p: string) {
    (|p| == 1 && Plain(p[0])) || IsToken(p)
  }

  predicate WellFormedPieces(ps: seq<string>) {
    forall j :: 0 <= j < |ps| ==> WellFormedPiece(ps[j])
  }

  function Concat(ps: seq<string>): string {
    if ps == [] then [] else ps[0] + Concat(ps[1..])
  }

  /** Every piece equal to `tok` becomes the one-character string [c]. */
  function Subst(ps: seq<string>, tok: string, c: char): (r: seq<string>)
    ensures |r| == |ps|
    ensures Plain(c) && WellFormedPieces(ps) ==> WellFormedPieces(r)
  {
    if ps == [] then []
    else [if ps[0] == tok then [c] else ps[0]] + Subst(ps[1..], tok, c)
  }

  function Pieces(s: string): (r: seq<string>)
    ensures PlainText(s) ==> WellFormedPieces(r)
  {
    if s == [] then [] else [EscapeChar(s[0])] + Pieces(s[1..])
  }

  function Singles(s: string): seq<string> {
    if s == [] then [] else [[s[0]]] + Singles(s[1..])
  }

  lemma {:induction false} ConcatPieces(s: string)
    ensures Concat(Pieces(s)) == EscapeByChar(s)
    ensures Concat(Singles(s)) == s
    decreases |s|
  {
    if s != [] {
      ConcatPieces(s[1..]);
      assert [s[0]] + s[1..] == s;
    }
  }

  lemma TokenShape(p: string)
    requires IsToken(p)
    ensures |p| >= 6 && p[0] == '_' && p[|p| - 1] == '_'
    ensures forall i :: 1 <= i < |p| - 1 ==> IsUpper(p[i])
  {
  }

  lemma TokensDiffer(p: string, q: string)
    requires IsToken(p) && IsToken(q) && p != q
    ensures p[1] != q[1]
  {
  }

  /** Escaped text never starts with an upper-case letter. */
  lemma {:induction false} ConcatHead(ps: seq<string>)
    requires WellFormedPieces(ps)
    ensures |Concat(ps)| > 0 ==> !IsUpper(Concat(ps)[0])
  {
    if ps != [] {
      if IsToken(ps[0]) {
        TokenShape(ps[0]);
      }
    }
  }

  /** No occurrence of `tok` starts inside a different token followed by escaped text. */
  lemma OtherTokenHasNoMatch(p: string, w: string, tok: string)
    requires IsToken(p) && IsToken(tok) && p != tok
    requires |w| > 0 ==> !IsUpper(w[0])
    ensures forall i :: 0 <= i < |p| ==> !StartsWith((p + w)[i..], tok)
  {
    TokenShape(p);
    TokenShape(tok);
    TokensDiffer(p, tok);
    forall i | 0 <= i < |p|
      ensures !StartsWith((p + w)[i..], tok)
    {
      var s := (p + w)[i..];
      if i == 0 {
        assert s[1] == p[1];
      } else if i < |p| - 1 {
        assert s[0] == p[i];
      } else if |w| > 0 {
        assert s[1] == w[0];
      } else {
        assert |s| == 1;
      }
    }
  }

  /** A piece equal to the target is replaced. */
  lemma ReplaceTokenPiece(p: string, w: string, tok: string, rep: string)
    requires tok != [] && p == tok
    ensures Replace(p + w, tok, rep) == rep + Replace(w, tok, rep)
  {
    assert StartsWith(p + w, tok);
    assert (p + w)[|tok|..] == w;
  }

  /** A plain one-character piece is kept. */
  lemma ReplaceSinglePiece(p: string, w: string, tok: string, rep: string)
    requires |p| == 1 && Plain(p[0]) && tok != [] && tok[0] == '_'
    ensures Replace(p + w, tok, rep) == p + Replace(w, tok, rep)
  {
    assert (p + w)[0] == p[0] != tok[0];
    assert (p + w)[1..] == w;
  }

  /** A token piece other than the target is kept, when what follows does not start with a capital. */
  lemma ReplaceOtherTokenPiece(p: string, w: string, tok: string, rep: string)
    requires IsToken(p) && IsToken(tok) && p != tok
    requires |w| > 0 ==> !IsUpper(w[0])
    ensures Replace(p + w, tok, rep) == p + Replace(w, tok, rep)
  {
    OtherTokenHasNoMatch(p, w, tok);
    ReplaceSkipsPrefix(p, w, tok, rep);
  }

  lemma ConcatCons(x: string, ps: seq<string>)
    ensures Concat([x] + ps) == x + Concat(ps)
  {
    assert ([x] + ps)[1..] == ps;
  }

  /** One unescaping replacement acts on escaped text piece by piece. */
  lemma {:induction false} ReplaceOverPieces(ps: seq<string>, tok: string, c: char)
    requires WellFormedPieces(ps) && IsToken(tok) && Plain(c)
    ensures Replace(Concat(ps), tok, [c]) == Concat(Subst(ps, tok, c))
    decreases |ps|
  {
    if ps != [] {
      var p, rest := ps[0], ps[1..];
      var w := Concat(rest);
      assert WellFormedPieces(rest);
      ReplaceOverPieces(rest, tok, c);
      var q := if p == tok then [c] else p;
      assert Subst(ps, tok, c) == [q] + Subst(rest, tok, c);
      ConcatCons(q, Subst(rest, tok, c));
      if p == tok {
        ReplaceTokenPiece(p, w, tok, [c]);
      } else if |p| == 1 {
        TokenShape(tok);
        ReplaceSinglePiece(p, w, tok, [c]);
      } else {
        ConcatHead(rest);
        ReplaceOtherTokenPiece(p, w, tok, [c]);
      }
    }
  }

  /** The four unescaping substitutions, in the order the Java code applies them. */
  function SubstTokens(ps: seq<string>): seq<string> {
    Subst(Subst(Subst(Subst(ps, "_COLON_", ':'), "_HYPHEN_", '-'), "_VERT_", '|'), "_SPACE_", ' ')
  }

  lemma SubstCons(x: string, ps: seq<string>, tok: string, c: char)
    ensures Subst([x] + ps, tok, c) == [if x == tok then [c] else x] + Subst(ps, tok, c)
  {
    assert ([x] + ps)[1..] == ps;
  }

  /** A substitution acts on two lists of pieces independently. */
  lemma {:induction false} SubstAppend(a: seq<string>, b: seq<string>, tok: string, c: char)
    ensures Subst(a + b, tok, c) == Subst(a, tok, c) + Subst(b, tok, c)
    decreases |a|
  {
    if a == [] {
      assert a + b == b;
    } else {
      assert (a + b)[1..] == a[1..] + b;
      SubstAppend(a[1..], b, tok, c);
    }
  }

  lemma SubstTokensCons(x: string, ps: seq<string>)
    ensures SubstTokens([x] + ps) == SubstTokens([x]) + SubstTokens(ps)
  {
    var a0, b0 := [x], ps;
    SubstAppend(a0, b0, "_COLON_", ':');
    var a1, b1 := Subst(a0, "_COLON_", ':'), Subst(b0, "_COLON_", ':');
    SubstAppend(a1, b1, "_HYPHEN_", '-');
    var a2, b2 := Subst(a1, "_HYPHEN_", '-'), Subst(b1, "_HYPHEN_", '-');
    SubstAppend(a2, b2, "_VERT_", '|');
    var a3, b3 := Subst(a2, "_VERT_", '|'), Subst(b2, "_VERT_", '|');
    SubstAppend(a3, b3, "_SPACE_", ' ');
  }

  lemma SubstTokensChar(c: char)
    ensures SubstTokens([EscapeChar(c)]) == [[c]]
  {
    SubstTokensCons(EscapeChar(c), []);
    assert Subst([], "_COLON_", ':') == [];
    assert Subst([], "_HYPHEN_", '-') == [];
    assert Subst([], "_VERT_", '|') == [];
    assert Subst([], "_SPACE_", ' ') == [];
    SubstCons(EscapeChar(c), [], "_COLON_", ':');
  }

  /** Replacing every token by its character in turn leaves one piece per original character. */
  lemma {:induction false} SubstAllTokens(s: string)
    ensures SubstTokens(Pieces(s)) == Singles(s)
    decreases |s|
  {
    if s != [] {
      SubstAllTokens(s[1..]);
      SubstTokensCons(EscapeChar(s[0]), Pieces(s[1..]));
      SubstTokensChar(s[0]);
    }
  }

  /**
    Unescaping undoes escaping for text with no underscore and no upper-case
    letter: no escape token can then be formed across the boundary of two
    escaped characters.
   */
  lemma UnescapeInvertsEscape(s: string)
    requires PlainText(s)
    ensures Unescape(Escape(s)) == s
  {
    EscapeIsPerCharacter(s);
    ConcatPieces(s);
    var p0 := Pieces(s);
    ReplaceOverPieces(p0, "_COLON_", ':');
    var p1 := Subst(p0, "_COLON_", ':');
    ReplaceOverPieces(p1, "_HYPHEN_", '-');
    var p2 := Subst(p1, "_HYPHEN_", '-');
    ReplaceOverPieces(p2, "_VERT_", '|');
    var p3 := Subst(p2, "_VERT_", '|');
    ReplaceOverPieces(p3, "_SPACE_", ' ');
    SubstAllTokens(s);
  }

  /** Replacing a target that occurs nowhere changes nothing. */
  lemma NoOccurrence(s: string, pat: string, rep: string)
    requires pat != []
    requires forall i :: 0 <= i < |s| ==> !StartsWith(s[i..], pat)
    ensures Replace(s, pat, rep) == s
  {
    assert forall i :: 0 <= i < |s| ==> (s + [])[i..] == s[i..];
    ReplaceSkipsPrefix(s, [], pat, rep);
    assert s + [] == s;
  }

  // The counterexamples below take the fixed words they are about ("COLON",
  // " ", "_SPACE_", ...) as parameters pinned by a `requires`. Stated over the
  // string literals themselves, the verifier would evaluate the replacement
  // chains on the constants eagerly, which is far slower; the statements are
  // the same, since each parameter has exactly one admissible value.

  /** "_COLON_" holds none of the characters the escaping replaces. */
  lemma EscapeKeepsColonToken(w: string)
    requires w == "COLON"
    ensures Escape("_" + w + "_") == "_" + w + "_"
  {
    var s := "_" + w + "_";
    assert ':' !in s && '|' !in s && '-' !in s && ' ' !in s;
  }

  /** "_COLON_" is unescaped to ":". */
  lemma UnescapeColonToken(w: string)
    requires w == "COLON"
    ensures Unescape("_" + w + "_") == ":"
  {
    var s := "_" + w + "_";
    assert s == "_COLON_";
    ReplaceWhole(s, ":");
    ReplaceAbsent(":", "_HYPHEN_", "-");
    ReplaceAbsent(":", "_VERT_", "|");
    ReplaceAbsent(":", "_SPACE_", " ");
  }

  /**
    Comment text that already spells a token comes back as the character:
    "_COLON_" is left alone by the escaping and unescaped to ":".
   */
  lemma UnderscoreBreaksRoundTrip(w: string)
    requires w == "COLON"
    ensures Escape("_" + w + "_") == "_" + w + "_"
    ensures Unescape(Escape("_" + w + "_")) == ":" != "_" + w + "_"
  {
    EscapeKeepsColonToken(w);
    UnescapeColonToken(w);
  }

  lemma EscapeByCharSpace(sp: string, tok: string)
    requires sp == " " && tok == "_SPACE_"
    ensures EscapeByChar(sp) == tok
  {
    EscapeByCharCons(' ', "");
  }

  /** Text with nothing to escape, between two spaces, is escaped as that text between two space tokens. */
  lemma EscapeBetweenSpaces(w: string, sp: string, tok: string)
    requires sp == " " && tok == "_SPACE_"
    requires ':' !in w && '|' !in w && '-' !in w && ' ' !in w
    ensures Escape(sp + w + sp) == tok + w + tok
  {
    assert forall i :: 0 <= i < |w| ==> !Forbidden(w[i]);
    EscapeIsPerCharacter(sp + w + sp);
    EscapeByCharAppend(sp + w, sp);
    EscapeByCharAppend(sp, w);
    EscapeByCharUnchanged(w);
    EscapeByCharSpace(sp, tok);
  }

  /** The one occurrence of the target between `u` and `t` is replaced. */
  lemma ReplaceMiddle(u: string, v: string, t: string, rep: string)
    requires v != []
    requires forall i :: 0 <= i < |u| ==> !StartsWith((u + (v + t))[i..], v)
    requires forall i :: 0 <= i < |t| ==> !StartsWith(t[i..], v)
    ensures Replace(u + (v + t), v, rep) == u + (rep + t)
  {
    ReplaceSkipsPrefix(u, v + t, v, rep);
    assert StartsWith(v + t, v);
    assert (v + t)[|v|..] == t;
    NoOccurrence(t, v, rep);
  }

  /** In "_SPACE" + "_COLON_" + "SPACE_" the only "_COLON_" is the middle part. */
  lemma ColonTokenStraddles(u: string, v: string, t: string, c: string)
    requires u == "_SPACE" && v == "_COLON_" && t == "SPACE_"
    ensures Replace(u + (v + t), v, c) == u + (c + t)
  {
    var e := u + (v + t);
    forall i | 0 <= i < |u|
      ensures !StartsWith(e[i..], v)
    {
      if i == 0 {
        assert e[i..][1] == 'S';
      } else {
        assert e[i..][0] == u[i];
      }
    }
    forall i | 0 <= i < |t|
      ensures !StartsWith(t[i..], v)
    {
      assert |t[i..]| < |v|;
    }
    ReplaceMiddle(u, v, t, c);
  }

  /** A target whose ends are '_' is not found in longer text that has '_' only at its two ends. */
  lemma UnderscoresOnlyAtEnds(r: string, pat: string, rep: string)
    requires |r| >= 2 && r[0] == '_' && r[|r| - 1] == '_'
    requires forall i :: 0 < i < |r| - 1 ==> r[i] != '_'
    requires 2 <= |pat| < |r| && pat[0] == '_' && pat[|pat| - 1] == '_'
    ensures Replace(r, pat, rep) == r
  {
    forall i | 0 <= i < |r|
      ensures !StartsWith(r[i..], pat)
    {
      if i == 0 {
        assert r[i..][|pat| - 1] == r[|pat| - 1];
      } else if i < |r| - 1 {
        assert r[i..][0] == r[i];
      } else {
        assert |r[i..]| == 1;
      }
    }
    NoOccurrence(r, pat, rep);
  }

  /** The last three unescaping steps find nothing in "_SPACE:SPACE_". */
  lemma UnescapeLaterSteps(r: string)
    requires r == "_SPACE:SPACE_"
    ensures Replace(Replace(Replace(r, "_HYPHEN_", "-"), "_VERT_", "|"), "_SPACE_", " ") == r
  {
    assert forall i :: 0 < i < |r| - 1 ==> r[i] != '_';
    UnderscoresOnlyAtEnds(r, "_HYPHEN_", "-");
    UnderscoresOnlyAtEnds(r, "_VERT_", "|");
    UnderscoresOnlyAtEnds(r, "_SPACE_", " ");
  }

  /** " COLON " is escaped as "_SPACE_COLON_SPACE_". */
  lemma EscapeSpacedColonWord(w: string)
    requires w == "COLON"
    ensures Escape(" " + w + " ") == "_SPACE_" + w + "_SPACE_"
  {
    EscapeBetweenSpaces(w, " ", "_SPACE_");
  }

  /** The first unescaping step turns "_SPACE_COLON_SPACE_" into "_SPACE:SPACE_". */
  lemma UnescapeFirstStep(w: string)
    requires w == "COLON"
    ensures Replace("_SPACE_" + w + "_SPACE_", "_COLON_", ":") == "_SPACE:SPACE_"
  {
    var u, v, t := "_SPACE", "_" + w + "_", "SPACE_";
    assert "_SPACE_" + w + "_SPACE_" == u + (v + t);
    assert v == "_COLON_";
    ColonTokenStraddles(u, v, t, ":");
    assert u + (":" + t) == "_SPACE:SPACE_";
  }

  /**
    Upper-case letters alone break the round trip too: " COLON " escapes to
    "_SPACE_COLON_SPACE_", in which the first unescaping step finds "_COLON_"
    straddling the two escaped spaces, so it comes back as "_SPACE:SPACE_".
   */
  lemma UpperCaseBreaksRoundTrip(w: string)
    requires w == "COLON"
    ensures Escape(" " + w + " ") == "_SPACE_" + w + "_SPACE_"
    ensures Unescape(Escape(" " + w + " ")) == "_SPACE:SPACE_" != " " + w + " "
  {
    EscapeSpacedColonWord(w);
    UnescapeFirstStep(w);
    UnescapeLaterSteps("_SPACE:SPACE_");
  }

  lemma {:induction false} EscapeByCharAppend(s: string, t: string)
    ensures EscapeByChar(s + t) == EscapeByChar(s) + EscapeByChar(t)
    decreases |s|
  {
    if s == [] {
      assert s + t == t;
    } else {
      assert (s + t)[1..] == s[1..] + t;
      EscapeByCharAppend(s[1..], t);
    }
  }

  lemma {:induction false} EscapeByCharUnchanged(s: string)
    requires forall i :: 0 <= i < |s| ==> !Forbidden(s[i])
    ensures EscapeByChar(s) == s
    decreases |s|
  {
    if s != [] {
      EscapeByCharUnchanged(s[1..]);
      assert [s[0]] + s[1..] == s;
    }
  }
}

=== FILE: commented_yaml.dfy ===
/**
  The CommentedYamlConfiguration side of the comment shim: a YAML
  configuration, seen as a map from paths to values, that remembers how many
  comments it holds so that new comments can be stored under fresh keys
  `<Name>_COMMENT_<n>` next to ordinary settings.

  The YAML library itself is not modelled: its map is flat (a path is one
  key), `set(path, null)` is `Put(..., None)` and removes the key, and the
  parse performed on load is a parameter.
 */
module CommentedYaml {
  import opened Wrappers
  import opened Strings
  import opened CommentCodec
  import opened ConfigFiles

  /** A stored value, as far as these operations tell values apart. */
  datatype Value =
    | Text(text: string)
    | TextList(items: seq<string>)
    | Section
    | Other(literal: string)

  /**
    A configuration: its file manager, the name of the owning plugin, the
    YAML map and the number of comments handed out so far.
   */
  datatype Configuration = Configuration(
    manager: FileManager,
    pluginName: string,
    entries: map<string, Value>,
    numComments: nat)

  /** `entries` holds the escaped text of `comment` under `key`. */
  predicate StoresComment(entries: map<string, Value>, key: string, comment: string) {
    key in entries && entries[key] == Text(EscapeByChar(comment))
  }

  /** `m1` and `m2` agree on `k`: both lack it or both map it to the same value. */
  predicate SameAt(m1: map<string, Value>, m2: map<string, Value>, k: string) {
    (k in m1 <==> k in m2) && (k in m1 ==> m1[k] == m2[k])
  }

  /** The YAML library's `set(path, value)`: a present value is stored, an absent one removes the key. */
  function Put(entries: map<string, Value>, path: string, value: Option<Value>): (r: map<string, Value>)
    ensures value.Some? ==> path in r && r[path] == value.value
    ensures value.None? ==> path !in r
    ensures forall k :: k != path ==> SameAt(entries, r, k)
  {
    if value.Some? then entries[path := value.value] else entries - {path}
  }

  /**
    The constructor: a missing or empty file name is refused (the Java code
    throws IllegalArgumentException); otherwise the configuration starts empty
    with no comments and a file manager built from the same name.
   */
  function NewConfiguration(fileName: Option<string>, resourceName: string, pluginName: string,
                            dataFolder: string, separator: char): (r: Result<Configuration>)
    ensures r.Err? <==> fileName.None? || fileName.value == ""
    ensures r.Err? ==> r.error == InvalidFileName
    ensures r.Ok? ==>
      && r.value.entries == map[]
      && r.value.numComments == 0
      && r.value.pluginName == pluginName
      && r.value.manager.file == DataPath(dataFolder, separator, fileName.value)
      && r.value.manager.resourceName == resourceName
  {
    if fileName.None? || fileName.value == "" then
      Err(InvalidFileName)
    else
      Ok(Configuration(NewFileManager(dataFolder, separator, fileName.value, resourceName), pluginName, map[], 0))
  }

  // ---------------------------------------------------------------------
  // Lookups

  /**
    `getConfigurationSection`: the section at `path`, created (replacing
    whatever was there) when there is none. The result is never missing.
   */
  function GetConfigurationSection(c: Configuration, path: string): (r: Configuration)
    ensures path in r.entries && r.entries[path] == Section
    ensures forall k :: k != path ==> SameAt(c.entries, r.entries, k)
    ensures path in c.entries && c.entries[path] == Section ==> r == c
    ensures r.manager == c.manager && r.pluginName == c.pluginName && r.numComments == c.numComments
  {
    if path in c.entries && c.entries[path].Section? then c
    else c.(entries := c.entries[path := Section])
  }

  /** Asking for the same section twice creates it at most once. */
  lemma GetConfigurationSectionIdempotent(c: Configuration, path: string)
    ensures GetConfigurationSection(GetConfigurationSection(c, path), path) == GetConfigurationSection(c, path)
  {
  }

  /**
    Creating a section keeps the counter ahead, unless the path is a comment
    key the counter has not reached: the next comment would then overwrite
    the new section.
   */
  lemma GetConfigurationSectionKeepsCounterAhead(c: Configuration, path: string)
    requires CounterAhead(c)
    requires forall i: nat :: path == CommentKey(c.pluginName, i) ==> i < c.numComments
    ensures CounterAhead(GetConfigurationSection(c, path))
  {
    var r := GetConfigurationSection(c, path);
    forall i: nat | CommentKey(c.pluginName, i) in r.entries
      ensures i < r.numComments
    {
      var key := CommentKey(c.pluginName, i);
      if key != path {
        assert SameAt(c.entries, r.entries, key);
      }
    }
  }

  /** Without that caveat the invariant can break, as it can for the setters. */
  lemma SectionUnderNextKeyBreaksCounterAhead(c: Configuration)
    ensures !CounterAhead(GetConfigurationSection(c, CommentKey(c.pluginName, c.numComments)))
  {
    var r := GetConfigurationSection(c, CommentKey(c.pluginName, c.numComments));
    assert CommentKey(r.pluginName, c.numComments) in r.entries;
  }

  /** `getList`: the list stored at `path`, or a new empty list; never missing. */
  function GetList(c: Configuration, path: string): (r: seq<string>)
    ensures path in c.entries && c.entries[path].TextList? ==> r == c.entries[path].items
    ensures !(path in c.entries && c.entries[path].TextList?) ==> r == []
  {
    if path in c.entries && c.entries[path].TextList? then c.entries[path].items else []
  }

  // ---------------------------------------------------------------------
  // Setting values with comments

  /**
    True iff `k` is one of the `count` comment keys numbered from `first`
    on, that is, a key a setter handing out those numbers writes.
   */
  ghost predicate IsNewCommentKey(name: string, first: nat, count: nat, k: string) {
    exists j: nat :: first <= j < first + count && k == CommentKey(name, j)
  }


  /**
    One pass of the comment loop: the escaped comment is stored under the key
    numbered by the current counter, and the counter moves on. The text is
    escaped character by character; `AddCommentEscapes` shows that this is
    what the Java chain of `replace` calls produces.
   */
  function AddComment(c: Configuration, comment: string): (r: Configuration)
    ensures r.numComments == c.numComments + 1
    ensures StoresComment(r.entries, CommentKey(c.pluginName, c.numComments), comment)
    ensures forall k :: k != CommentKey(c.pluginName, c.numComments) ==> SameAt(c.entries, r.entries, k)
    ensures r.manager == c.manager && r.pluginName == c.pluginName
  {
    c.(entries := c.entries[CommentKey(c.pluginName, c.numComments) := Text(EscapeByChar(comment))],
       numComments := c.numComments + 1)
  }

  /** The stored text is the comment sent through the escaping chain. */
  lemma AddCommentEscapes(c: Configuration, comment: string)
    ensures AddComment(c, comment).entries[CommentKey(c.pluginName, c.numComments)] == Text(Escape(comment))
  {
    EscapeIsPerCharacter(comment);
  }

  /** The comment loop over all `comments`, in order, as repeated single passes. */
  function AddComments(c: Configuration, comments: seq<string>): (r: Configuration)
    ensures r.numComments == c.numComments + |comments|
    ensures r.manager == c.manager && r.pluginName == c.pluginName
    decreases |comments|
  {
    if comments == [] then c else AddComments(AddComment(c, comments[0]), comments[1..])
  }

  /** A key among the numbers after `first` is among the numbers from `first` on. */
  lemma NewCommentKeyShift(name: string, first: nat, count: nat, k: string)
    ensures IsNewCommentKey(name, first + 1, count, k) ==> IsNewCommentKey(name, first, count + 1, k)
  {
    if IsNewCommentKey(name, first + 1, count, k) {
      var j: nat :| first + 1 <= j < first + 1 + count && k == CommentKey(name, j);
      assert first <= j < first + count + 1;
    }
  }

  /** The comment loop leaves every key it does not hand out as it was. */
  lemma {:induction false} AddCommentsKeeps(c: Configuration, comments: seq<string>, k: string)
    requires !IsNewCommentKey(c.pluginName, c.numComments, |comments|, k)
    ensures SameAt(c.entries, AddComments(c, comments).entries, k)
    decreases |comments|
  {
    if comments != [] {
      var next := AddComment(c, comments[0]);
      assert c.numComments <= c.numComments < c.numComments + |comments|;
      assert k != CommentKey(c.pluginName, c.numComments);
      NewCommentKeyShift(c.pluginName, c.numComments, |comments| - 1, k);
      AddCommentsKeeps(next, comments[1..], k);
    }
  }

  /** The j-th comment ends up, escaped, under the key numbered by the counter plus j. */
  lemma {:induction false} AddCommentsStores(c: Configuration, comments: seq<string>, j: nat)
    requires j < |comments|
    ensures StoresComment(AddComments(c, comments).entries, CommentKey(c.pluginName, c.numComments + j), comments[j])
    decreases |comments|
  {
    if j == 0 {
      AddCommentsStoresFirst(c, comments);
    } else {
      var next := AddComment(c, comments[0]);
      assert comments[1..][j - 1] == comments[j];
      assert next.numComments + (j - 1) == c.numComments + j;
      AddCommentsStores(next, comments[1..], j - 1);
    }
  }

  /** The first comment is stored under the current counter, and later passes leave it there. */
  lemma AddCommentsStoresFirst(c: Configuration, comments: seq<string>)
    requires comments != []
    ensures StoresComment(AddComments(c, comments).entries, CommentKey(c.pluginName, c.numComments), comments[0])
  {
    var next := AddComment(c, comments[0]);
    OlderKeyNotNew(c.pluginName, c.numComments, next.numComments, |comments| - 1);
    AddCommentsKeeps(next, comments[1..], CommentKey(c.pluginName, c.numComments));
  }

  /** A key numbered below `first` is not among those handed out from `first` on. */
  lemma OlderKeyNotNew(name: string, i: nat, first: nat, count: nat)
    requires i < first
    ensures !IsNewCommentKey(name, first, count, CommentKey(name, i))
  {
    forall j: nat | first <= j < first + count
      ensures CommentKey(name, i) != CommentKey(name, j)
    {
      CommentKeyInjective(name, i, j);
    }
  }

  /** `AddCommentsStores` and `AddCommentsKeeps` for every comment and every key. */
  lemma AddCommentsEffect(c: Configuration, comments: seq<string>)
    ensures forall j :: 0 <= j < |comments| ==>
      StoresComment(AddComments(c, comments).entries, CommentKey(c.pluginName, c.numComments + j), comments[j])
    ensures forall k :: !IsNewCommentKey(c.pluginName, c.numComments, |comments|, k) ==>
      SameAt(c.entries, AddComments(c, comments).entries, k)
  {
    forall j | 0 <= j < |comments|
      ensures StoresComment(AddComments(c, comments).entries, CommentKey(c.pluginName, c.numComments + j), comments[j])
    {
      AddCommentsStores(c, comments, j);
    }
    forall k | !IsNewCommentKey(c.pluginName, c.numComments, |comments|, k)
      ensures SameAt(c.entries, AddComments(c, comments).entries, k)
    {
      AddCommentsKeeps(c, comments, k);
    }
  }

  /** Feeding comments in two batches is the same as feeding them in one. */
  lemma {:induction false} AddCommentsAppend(c: Configuration, a: seq<string>, b: seq<string>)
    ensures AddComments(c, a + b) == AddComments(AddComments(c, a), b)
    decreases |a|
  {
    if a == [] {
      assert a + b == b;
    } else {
      assert (a + b)[1..] == a[1..] + b;
      AddCommentsAppend(AddComment(c, a[0]), a[1..], b);
    }
  }

  /**
    `set(path, value, comments...)`: every comment is stored under a fresh
    numbered key, then `path` is set; no other key changes.
   */
  function SetWithComments(c: Configuration, path: string, value: Option<Value>, comments: seq<string>): (r: Configuration)
    ensures r.numComments == c.numComments + |comments|
    ensures r.manager == c.manager && r.pluginName == c.pluginName
    ensures value.Some? ==> path in r.entries && r.entries[path] == value.value
    ensures value.None? ==> path !in r.entries
    ensures forall j :: 0 <= j < |comments| && CommentKey(c.pluginName, c.numComments + j) != path ==>
      StoresComment(r.entries, CommentKey(c.pluginName, c.numComments + j), comments[j])
    ensures forall k :: k != path && !IsNewCommentKey(c.pluginName, c.numComments, |comments|, k) ==>
      SameAt(c.entries, r.entries, k)
  {
    var withComments := AddComments(c, comments);
    AddCommentsEffect(c, comments);
    withComments.(entries := Put(withComments.entries, path, value))
  }

  /**
    `set(path, value, comment)`: an absent comment is ignored; a present one
    is stored under the next numbered key before `path` is set.
   */
  function SetWithComment(c: Configuration, path: string, value: Option<Value>, comment: Option<string>): (r: Configuration)
    ensures r.numComments == c.numComments + (if comment.Some? then 1 else 0)
    ensures r.manager == c.manager && r.pluginName == c.pluginName
    ensures value.Some? ==> path in r.entries && r.entries[path] == value.value
    ensures value.None? ==> path !in r.entries
    ensures comment.Some? && CommentKey(c.pluginName, c.numComments) != path ==>
      StoresComment(r.entries, CommentKey(c.pluginName, c.numComments), comment.value)
    ensures forall k :: k != path && (comment.None? || k != CommentKey(c.pluginName, c.numComments)) ==>
      SameAt(c.entries, r.entries, k)
  {
    var withComment := if comment.Some? then AddComment(c, comment.value) else c;
    withComment.(entries := Put(withComment.entries, path, value))
  }

  /** The single-comment setter is the many-comment setter given zero or one comment. */
  lemma SingleCommentIsOneElementList(c: Configuration, path: string, value: Option<Value>, comment: Option<string>)
    ensures SetWithComment(c, path, value, comment)
      == SetWithComments(c, path, value, if comment.Some? then [comment.value] else [])
  {
    if comment.Some? {
      var x := comment.value;
      assert [x][1..] == [];
      assert AddComments(c, [x]) == AddComments(AddComment(c, x), []) == AddComment(c, x);
    }
  }

  /** A list stored by a setter is what `getList` reads back. */
  lemma GetListAfterSet(c: Configuration, path: string, items: seq<string>, comments: seq<string>)
    ensures GetList(SetWithComments(c, path, Some(TextList(items)), comments), path) == items
  {
  }

  /**
    A comment stored by the setter, once the YAML library writes it out as
    `key: escaped text`, is decoded back to the original comment line, as
    long as its text is plain and the plugin name has no ':'.
   */
  lemma StoredCommentDecodes(c: Configuration, path: string, value: Option<Value>, comment: string)
    requires ':' !in c.pluginName && PlainText(comment)
    requires CommentKey(c.pluginName, c.numComments) != path
    ensures var key := CommentKey(c.pluginName, c.numComments);
      var r := SetWithComment(c, path, value, Some(comment));
      && IsDisguised(c.pluginName, key + ": " + r.entries[key].text)
      && DecodeComment(key + ": " + r.entries[key].text) == "#" + comment
  {
    var line := "#" + comment;
    assert line[1..] == comment;
    DecodeEncodedComment(c.pluginName, c.numComments, line);
  }

  // ---------------------------------------------------------------------
  // The counter invariant

  /** Every comment key present in the map is numbered below the counter, so new comments never clash with old ones. */
  ghost predicate CounterAhead(c: Configuration) {
    forall i: nat :: CommentKey(c.pluginName, i) in c.entries ==> i < c.numComments
  }

  /**
    The setters keep the counter ahead, unless the caller itself sets a value
    under a comment key the counter has not reached.
   */
  lemma {:induction false} SetWithCommentsKeepsCounterAhead(c: Configuration, path: string, value: Option<Value>, comments: seq<string>)
    requires CounterAhead(c)
    requires value.Some? ==> forall i: nat :: path == CommentKey(c.pluginName, i) ==> i < c.numComments + |comments|
    ensures CounterAhead(SetWithComments(c, path, value, comments))
  {
    var r := SetWithComments(c, path, value, comments);
    forall i: nat | CommentKey(c.pluginName, i) in r.entries
      ensures i < r.numComments
    {
      var key := CommentKey(c.pluginName, i);
      if key == path {
      } else if IsNewCommentKey(c.pluginName, c.numComments, |comments|, key) {
        var j: nat :| c.numComments <= j < c.numComments + |comments| && key == CommentKey(c.pluginName, j);
        CommentKeyInjective(c.pluginName, i, j);
      } else {
        assert SameAt(c.entries, r.entries, key);
      }
    }
  }

  /**
    Without that caveat the invariant can break: setting a value under the
    comment key the counter is about to hand out leaves a key the counter
    has not passed, and the next comment overwrites the value.
   */
  lemma SetUnderNextKeyBreaksCounterAhead(c: Configuration, v: Value)
    ensures !CounterAhead(SetWithComments(c, CommentKey(c.pluginName, c.numComments), Some(v), []))
  {
    var r := SetWithComments(c, CommentKey(c.pluginName, c.numComments), Some(v), []);
    assert CommentKey(r.pluginName, c.numComments) in r.entries;
  }

  // ---------------------------------------------------------------------
  // Loading

  /**
    True iff some reworked line declares `key`, that is, starts with `key: `.
    Used as an assumption about the parse: YAML also yields a top-level key
    from a quoted key (`"<Name>_COMMENT_0": x`), an explicit `? ` key or a
    flow mapping, none of which this predicate covers.
   */
  ghost predicate Declares(reworked: seq<string>, key: string) {
    exists j :: 0 <= j < |reworked| && StartsWith(reworked[j], key + ": ")
  }

  /**
    `loadConfiguration`: the file's lines are reworked (which also recounts
    the manager's comments), the map is cleared, and `parse` reads the
    reworked text. When the text parses, the map becomes its entries and the
    counter the file's comment count. When it does not, the exception leaves
    the map cleared and skips the counter update, so the old counter stays.
    After a successful parse that only reports comment keys some reworked
    line declares, the counter is ahead of every comment key in the map.
   */
  method LoadConfiguration(c: Configuration, lines: seq<string>, parse: string -> Option<map<string, Value>>)
    returns (r: Configuration, text: string, failure: Option<Error>)
    ensures text == Terminated(Reworked(c.pluginName, lines, 0))
    ensures failure == None <==> parse(text).Some?
    ensures failure != None ==> failure == Some(InvalidConfiguration)
    ensures parse(text).Some? ==> r.entries == parse(text).value && r.numComments == CountComments(lines)
    ensures parse(text).None? ==> r.entries == map[] && r.numComments == c.numComments
    ensures r.manager.numComments == CountComments(lines)
    ensures r.pluginName == c.pluginName
    ensures r.manager.file == c.manager.file && r.manager.resourceName == c.manager.resourceName
    ensures parse(text).None? ==> CounterAhead(r)
    ensures && parse(text).Some?
            && ':' !in c.pluginName
            && (forall k :: 0 <= k < |lines| && !IsComment(lines[k]) ==> !IsDisguised(c.pluginName, lines[k]))
            && (forall i: nat :: CommentKey(c.pluginName, i) in r.entries ==>
                  Declares(Reworked(c.pluginName, lines, 0), CommentKey(c.pluginName, i)))
            ==> CounterAhead(r)
  {
    var manager;
    manager, text := ReworkComments(c.manager, c.pluginName, lines);
    r := c.(manager := manager, entries := map[]);
    var parsed := parse(text);
    if parsed.None? {
      failure := Some(InvalidConfiguration);
      return;
    }
    failure := None;
    r := r.(entries := parsed.value, numComments := manager.numComments);
    if ':' !in c.pluginName
       && (forall k :: 0 <= k < |lines| && !IsComment(lines[k]) ==> !IsDisguised(c.pluginName, lines[k]))
       && (forall i: nat :: CommentKey(c.pluginName, i) in r.entries ==>
             Declares(Reworked(c.pluginName, lines, 0), CommentKey(c.pluginName, i)))
    {
      forall i: nat | CommentKey(c.pluginName, i) in r.entries
        ensures i < r.numComments
      {
        var j :| 0 <= j < |lines| && StartsWith(Reworked(c.pluginName, lines, 0)[j], CommentKey(c.pluginName, i) + ": ");
        DeclaredCommentBelowCount(c.pluginName, lines, i, j);
      }
    }
  }
}

=== FILE: config_files.dfy ===
/**
  The FileManager side of the comment shim. Before the YAML library parses a
  configuration file, every comment line is rewritten as a key/value line
  `<Name>_COMMENT_<n>: <escaped text>`; after the library has written the
  configuration back to a string, those lines are turned back into comments
  and a fixed blank-line layout is applied around runs of comments.

  A file is modelled as the sequence of lines a line reader returns; the
  plugin name is a parameter.
 */
module ConfigFiles {
  import opened Strings
  import opened CommentCodec

  /**
    What a FileManager keeps: the path of its file, the name of the plugin
    resource that seeds it, and the number of comments the last rework found.
   */
  datatype FileManager = FileManager(file: string, resourceName: string, numComments: nat)

  /**
    The path of a plugin file: the data folder, then the file name with each
    '/' turned into the platform separator; a separator is put in between
    only when the name does not already start with '/'.
   */
  function DataPath(dataFolder: string, separator: char, fileName: string): (path: string)
    ensures |path| > |dataFolder| && path[..|dataFolder|] == dataFolder
    ensures path[|dataFolder|] == separator
    ensures var offset := if StartsWith(fileName, "/") then |dataFolder| else |dataFolder| + 1;
      && |path| == offset + |fileName|
      && forall i :: 0 <= i < |fileName| ==>
           path[offset + i] == (if fileName[i] == '/' then separator else fileName[i])
  {
    var name := Replace(fileName, "/", [separator]);
    ReplaceCharPointwise(fileName, '/', separator);
    if StartsWith(fileName, "/") then dataFolder + name else dataFolder + [separator] + name
  }

  /** The three-argument constructor; the two-argument one passes the file name twice. */
  function NewFileManager(dataFolder: string, separator: char, fileName: string, resourceName: string): (fm: FileManager)
    ensures fm.file == DataPath(dataFolder, separator, fileName)
    ensures fm.resourceName == resourceName && fm.numComments == 0
  {
    FileManager(DataPath(dataFolder, separator, fileName), resourceName, 0)
  }

  // ---------------------------------------------------------------------
  // Encoding

  /** The number of comment lines in `lines`. */
  function CountComments(lines: seq<string>): (n: nat)
    ensures n <= |lines|
  {
    if lines == [] then 0 else (if IsComment(lines[0]) then 1 else 0) + CountComments(lines[1..])
  }

  /** The count is zero exactly when no line is a comment, and full exactly when every line is. */
  lemma {:induction false} CountCommentsExtremes(lines: seq<string>)
    ensures CountComments(lines) == 0 <==> forall i :: 0 <= i < |lines| ==> !IsComment(lines[i])
    ensures CountComments(lines) == |lines| <==> forall i :: 0 <= i < |lines| ==> IsComment(lines[i])
    decreases |lines|
  {
    if lines != [] {
      CountCommentsExtremes(lines[1..]);
      assert forall i :: 1 <= i < |lines| ==> lines[i] == lines[1..][i - 1];
    }
  }

  lemma {:induction false} CountCommentsAppend(a: seq<string>, b: seq<string>)
    ensures CountComments(a + b) == CountComments(a) + CountComments(b)
    decreases |a|
  {
    if a == [] {
      assert a + b == b;
    } else {
      assert (a + b)[1..] == a[1..] + b;
      CountCommentsAppend(a[1..], b);
    }
  }

  /**
    One line of the file as the YAML library is shown it: a comment line
    becomes a disguised key/value line, `<Name>_COMMENT_<n>: ` followed by
    the escaped comment text; any other line is kept as it is.
   */
  function EncodeLine(name: string, n: nat, line: string): string {
    if IsComment(line) then CommentKey(name, n) + ": " + EscapeByChar(line[1..]) else line
  }

  /**
    The same line as the Java loop computes it: the whole line goes through
    the escaping chain, then its first '#' is replaced by the key and ": ".
   */
  function ReworkLine(name: string, n: nat, line: string): (r: string)
    ensures r == EncodeLine(name, n, line)
  {
    if IsComment(line) then
      EscapeIsPerCharacter(line);
      EscapeByCharCons('#', line[1..]);
      assert line == ['#'] + line[1..];
      ReplaceFirst(Escape(line), "#", CommentKey(name, n) + ": ")
    else
      line
  }

  /**
    The lines of a file after a line-by-line rewrite in which each line is
    handed the number of comments before it, counting from `first`. The
    numbering does not depend on how a line is rewritten, so the facts about
    it are proved for any rewrite `enc`.
   */
  function Rework(enc: (string, nat, string) -> string, name: string, lines: seq<string>, first: nat): (r: seq<string>)
    ensures |r| == |lines|
  {
    if lines == [] then []
    else [enc(name, first, lines[0])]
         + Rework(enc, name, lines[1..], first + (if IsComment(lines[0]) then 1 else 0))
  }

  /** The lines of the reworked file when its first comment is numbered `first`. */
  function Reworked(name: string, lines: seq<string>, first: nat): (r: seq<string>)
  {
    Rework(EncodeLine, name, lines, first)
  }

  /** Reworking two parts: the second part's numbering starts after the first part's comments. */
  lemma {:induction false} ReworkAppend(enc: (string, nat, string) -> string, name: string, a: seq<string>, b: seq<string>, first: nat)
    ensures Rework(enc, name, a + b, first) == Rework(enc, name, a, first) + Rework(enc, name, b, first + CountComments(a))
    decreases |a|
  {
    if a == [] {
      assert a + b == b;
    } else {
      assert (a + b)[1..] == a[1..] + b;
      ReworkAppend(enc, name, a[1..], b, first + (if IsComment(a[0]) then 1 else 0));
    }
  }

  lemma ReworkedSnoc(name: string, lines: seq<string>, k: nat)
    requires k < |lines|
    ensures Reworked(name, lines[..k + 1], 0)
      == Reworked(name, lines[..k], 0) + [EncodeLine(name, CountComments(lines[..k]), lines[k])]
  {
    assert lines[..k + 1] == lines[..k] + [lines[k]];
    ReworkAppend(EncodeLine, name, lines[..k], [lines[k]], 0);
  }

  /** Line j of a reworked file is line j of the file, handed the number of comments before it. */
  lemma {:induction false} ReworkAt(enc: (string, nat, string) -> string, name: string, lines: seq<string>, first: nat, j: nat)
    requires j < |lines|
    ensures Rework(enc, name, lines, first)[j] == enc(name, first + CountComments(lines[..j]), lines[j])
    decreases j
  {
    if j > 0 {
      ReworkAt(enc, name, lines[1..], first + (if IsComment(lines[0]) then 1 else 0), j - 1);
      assert lines[..j] == [lines[0]] + lines[1..][..j - 1];
      CountCommentsAppend([lines[0]], lines[1..][..j - 1]);
    } else {
      assert lines[..0] == [];
    }
  }

  /** Line j of the reworked file: a comment carries the number of comments before it. */
  lemma ReworkedAt(name: string, lines: seq<string>, j: nat)
    requires j < |lines|
    ensures Reworked(name, lines, 0)[j] == EncodeLine(name, CountComments(lines[..j]), lines[j])
  {
    ReworkAt(EncodeLine, name, lines, 0, j);
    assert 0 + CountComments(lines[..j]) == CountComments(lines[..j]);
  }

  /**
    The reworked file line by line: an ordinary line is copied unchanged, and
    the comment at position j becomes its key, numbered by the comments before
    it, then ": " and the escaped text after the '#'.
   */
  lemma ReworkedLineByLine(name: string, lines: seq<string>, j: nat)
    requires j < |lines|
    ensures |Reworked(name, lines, 0)| == |lines|
    ensures !IsComment(lines[j]) ==> Reworked(name, lines, 0)[j] == lines[j]
    ensures IsComment(lines[j]) ==>
      Reworked(name, lines, 0)[j] == CommentKey(name, CountComments(lines[..j])) + ": " + EscapeByChar(lines[j][1..])
  {
    ReworkedAt(name, lines, j);
  }

  /**
    `getConfigurationWithReworkedComments` followed by `getNumberOfComments`:
    the loop appends one reworked line and a "\n" per line read, numbering
    comments with a counter that restarts at 0 on every call.
   */
  method ReworkComments(fm: FileManager, name: string, lines: seq<string>)
    returns (updated: FileManager, text: string)
    ensures updated == fm.(numComments := CountComments(lines))
    ensures text == Terminated(Reworked(name, lines, 0))
  {
    updated := fm.(numComments := 0);
    text := "";
    var k := 0;
    while k < |lines|
      invariant 0 <= k <= |lines|
      invariant updated == fm.(numComments := CountComments(lines[..k]))
      invariant text == Terminated(Reworked(name, lines[..k], 0))
    {
      var line := lines[k];
      ReworkedSnoc(name, lines, k);
      TerminatedSnoc(Reworked(name, lines[..k], 0), EncodeLine(name, updated.numComments, line));
      CountCommentsAppend(lines[..k], [line]);
      assert lines[..k + 1] == lines[..k] + [line];
      text := text + ReworkLine(name, updated.numComments, line) + "\n";
      if IsComment(line) {
        updated := updated.(numComments := updated.numComments + 1);
      }
      k := k + 1;
    }
    assert lines[..|lines|] == lines;
  }

  /**
    Comments are numbered in file order: a later comment carries a larger
    number, and every number is below the total count.
   */
  lemma CommentBelowCount(lines: seq<string>, j: nat)
    requires j < |lines| && IsComment(lines[j])
    ensures CountComments(lines[..j]) < CountComments(lines)
  {
    assert lines == lines[..j] + lines[j..];
    CountCommentsAppend(lines[..j], lines[j..]);
  }

  lemma CommentNumbersIncrease(lines: seq<string>, i: nat, j: nat)
    requires i < j < |lines| && IsComment(lines[i]) && IsComment(lines[j])
    ensures CountComments(lines[..i]) < CountComments(lines[..j]) < CountComments(lines)
  {
    assert lines[..j] == lines[..i] + lines[i..j];
    CountCommentsAppend(lines[..i], lines[i..j]);
    assert lines == lines[..j] + lines[j..];
    CountCommentsAppend(lines[..j], lines[j..]);
  }

  // ---------------------------------------------------------------------
  // Decoding

  /** A line the decoder takes for a disguised comment. */
  predicate IsDisguised(name: string, line: string) {
    StartsWith(line, CommentMarker(name))
  }

  /**
    A disguised line turned back into a comment: '#' followed by what comes
    after the first ": " (or, when there is none, by everything after the
    first character, as `substring(indexOf(": ") + 2)` gives), unescaped.
   */
  function DecodeComment(line: string): (r: string)
    requires |line| > 0
    ensures IsComment(r)
  {
    var at := IndexOf(line, ": ");
    var start := if at == -1 then 1 else at + 2;
    UnescapeKeepsHash("#" + line[start..]);
    Unescape("#" + line[start..])
  }

  /**
    The loop of `getConfigurationWithRegeneratedComments` over the lines
    handed back by the YAML library; `previousComment` is the flag saying
    whether the line before was a comment.
   */
  function DecodeLines(name: string, ls: seq<string>, previousComment: bool): (r: seq<string>)
    ensures |ls| <= |r| <= 2 * |ls|
  {
    if ls == [] then []
    else if IsDisguised(name, ls[0]) then
      (if previousComment then [] else [""]) + [DecodeComment(ls[0])] + DecodeLines(name, ls[1..], true)
    else
      [ls[0]] + DecodeLines(name, ls[1..], false)
  }

  /** `getConfigurationWithRegeneratedComments`: split the string, decode, and terminate every line. */
  function Regenerate(name: string, config: string): (r: string)
    ensures r == "" || r[|r| - 1] == '\n'
  {
    var ls := DecodeLines(name, JavaSplit(config, '\n'), false);
    TerminatedEndsLine(ls);
    Terminated(ls)
  }

  /** The output lines one input line contributes, judged from that line and the one before it. */
  function Block(name: string, ls: seq<string>, previousComment: bool, i: nat): seq<string>
    requires i < |ls|
  {
    var afterComment := if i == 0 then previousComment else IsDisguised(name, ls[i - 1]);
    if IsDisguised(name, ls[i]) then
      (if afterComment then [] else [""]) + [DecodeComment(ls[i])]
    else
      [ls[i]]
  }

  function Flatten(bs: seq<seq<string>>): seq<string> {
    if bs == [] then [] else bs[0] + Flatten(bs[1..])
  }

  function Blocks(name: string, ls: seq<string>, previousComment: bool): seq<seq<string>> {
    seq(|ls|, i requires 0 <= i < |ls| => Block(name, ls, previousComment, i))
  }

  /**
    The decoder line by line: every line that is not a disguised comment is
    copied as it is, in order; a disguised comment is decoded and preceded by
    an inserted empty line exactly when the line before it (or, for the
    first line, the initial flag) was not a disguised comment.
   */
  lemma {:induction false} DecodeLinesByLine(name: string, ls: seq<string>, previousComment: bool)
    ensures DecodeLines(name, ls, previousComment) == Flatten(Blocks(name, ls, previousComment))
    decreases |ls|
  {
    if ls != [] {
      var after := IsDisguised(name, ls[0]);
      DecodeLinesByLine(name, ls[1..], after);
      BlocksTail(name, ls, previousComment);
    }
  }

  lemma BlocksTail(name: string, ls: seq<string>, previousComment: bool)
    requires ls != []
    ensures Blocks(name, ls, previousComment)
      == [Block(name, ls, previousComment, 0)] + Blocks(name, ls[1..], IsDisguised(name, ls[0]))
  {
    var bs := Blocks(name, ls, previousComment);
    var tail := Blocks(name, ls[1..], IsDisguised(name, ls[0]));
    forall i | 0 <= i < |tail|
      ensures bs[i + 1] == tail[i]
    {
      assert ls[1..][i] == ls[i + 1];
      if i > 0 {
        assert ls[1..][i - 1] == ls[i];
      }
    }
  }

  /**
    `getConfigurationWithRegeneratedComments` line by line: the string is
    split at line breaks, each segment contributes its block, and every
    output line is terminated.
   */
  lemma RegenerateByLine(name: string, config: string)
    ensures Regenerate(name, config) == Terminated(Flatten(Blocks(name, JavaSplit(config, '\n'), false)))
  {
    DecodeLinesByLine(name, JavaSplit(config, '\n'), false);
  }

  /** The decoder on an empty string: one empty segment, hence one empty line. */
  lemma RegenerateEmpty(name: string)
    ensures Regenerate(name, "") == "\n"
  {
    assert JavaSplit("", '\n') == [""];
    assert !IsDisguised(name, "");
    assert DecodeLines(name, [""], false) == [""];
    assert Terminated([""]) == "" + "\n" + Terminated([]);
  }

  // ---------------------------------------------------------------------
  // The round trip

  /**
    The file with the layout the decoder imposes: an empty line before each
    comment that does not follow another comment.
   */
  function Layout(lines: seq<string>, previousComment: bool): (r: seq<string>)
    ensures |lines| <= |r|
  {
    if lines == [] then []
    else if IsComment(lines[0]) then
      (if previousComment then [] else [""]) + [lines[0]] + Layout(lines[1..], true)
    else
      [lines[0]] + Layout(lines[1..], false)
  }

  /**
    When a file survives the round trip: the plugin name holds no colon or
    newline, no line holds a newline, comment text holds no underscore and
    no upper-case letter, and no ordinary line looks like a disguised comment.
   */
  predicate RoundTripSafe(name: string, lines: seq<string>) {
    && ':' !in name && '\n' !in name
    && (forall i :: 0 <= i < |lines| ==> '\n' !in lines[i])
    && (forall i :: 0 <= i < |lines| && IsComment(lines[i]) ==> PlainText(lines[i][1..]))
    && (forall i :: 0 <= i < |lines| && !IsComment(lines[i]) ==> !IsDisguised(name, lines[i]))
  }

  /** Decoding reads back what follows the first ": " after a colon-free key. */
  lemma DecodeAfterKey(key: string, t: string)
    requires ':' !in key
    ensures DecodeComment(key + ": " + t) == Unescape("#" + t)
  {
    var e := key + ": " + t;
    IndexOfSeparator(key, t);
    assert e[|key| + 2..] == t;
  }

  lemma PlainComment(line: string)
    requires IsComment(line) && PlainText(line[1..])
    ensures PlainText(line)
  {
    forall i | 0 < i < |line|
      ensures Plain(line[i])
    {
      assert line[i] == line[1..][i - 1];
    }
  }

  /** The comment text unescapes back to the original line. */
  lemma UnescapeEncodedText(line: string)
    requires IsComment(line) && PlainText(line[1..])
    ensures Unescape("#" + EscapeByChar(line[1..])) == line
  {
    var text := line[1..];
    assert line == ['#'] + text;
    EscapeByCharCons('#', text);
    assert "#" + EscapeByChar(text) == EscapeByChar(line);
    EscapeIsPerCharacter(line);
    PlainComment(line);
    UnescapeInvertsEscape(line);
  }

  lemma EncodedIsDisguised(name: string, n: nat, t: string)
    ensures IsDisguised(name, CommentKey(name, n) + ": " + t)
  {
    var key := CommentKey(name, n);
    var m := CommentMarker(name);
    assert (key + ": " + t)[..|m|] == key[..|m|] == m;
  }

  /** A reworked comment line is recognised by the decoder and decodes to the original line. */
  lemma DecodeEncodedComment(name: string, n: nat, line: string)
    requires ':' !in name && IsComment(line) && PlainText(line[1..])
    ensures IsDisguised(name, EncodeLine(name, n, line))
    ensures DecodeComment(EncodeLine(name, n, line)) == line
  {
    var t := EscapeByChar(line[1..]);
    EncodedIsDisguised(name, n, t);
    DecodeAfterKey(CommentKey(name, n), t);
    UnescapeEncodedText(line);
  }

  /** Decoding what the encoder produced gives the original lines in the decoder's layout. */
  lemma {:induction false} DecodeReworked(name: string, lines: seq<string>, first: nat, previousComment: bool)
    requires RoundTripSafe(name, lines)
    ensures DecodeLines(name, Reworked(name, lines, first), previousComment) == Layout(lines, previousComment)
    decreases |lines|
  {
    if lines != [] {
      var line := lines[0];
      var c := if IsComment(line) then 1 else 0;
      assert RoundTripSafe(name, lines[1..]);
      if IsComment(line) {
        DecodeEncodedComment(name, first, line);
        DecodeReworked(name, lines[1..], first + 1, true);
      } else {
        DecodeReworked(name, lines[1..], first, false);
      }
    }
  }

  /**
    The round trip through the shim: if the YAML library hands back exactly
    the reworked text, the regenerated file is the original one with an empty
    line inserted before every run of comments.
   */
  lemma RegenerateReworked(name: string, lines: seq<string>)
    requires RoundTripSafe(name, lines)
    requires |lines| > 0 && lines[|lines| - 1] != ""
    ensures Regenerate(name, Terminated(Reworked(name, lines, 0))) == Terminated(Layout(lines, false))
  {
    ReworkedSplitsBack(name, lines);
    DecodeReworked(name, lines, 0, false);
  }

  /** Splitting the reworked text at "\n" gives back the reworked lines. */
  lemma ReworkedSplitsBack(name: string, lines: seq<string>)
    requires '\n' !in name && forall i :: 0 <= i < |lines| ==> '\n' !in lines[i]
    requires |lines| > 0 && lines[|lines| - 1] != ""
    ensures JavaSplit(Terminated(Reworked(name, lines, 0)), '\n') == Reworked(name, lines, 0)
  {
    ReworkedNoNewline(name, lines);
    ReworkedAt(name, lines, |lines| - 1);
    EncodeLineNotEmpty(name, CountComments(lines[..|lines| - 1]), lines[|lines| - 1]);
    SplitTerminated(Reworked(name, lines, 0));
  }

  lemma ReworkedNoNewline(name: string, lines: seq<string>)
    requires '\n' !in name && forall i :: 0 <= i < |lines| ==> '\n' !in lines[i]
    ensures forall i :: 0 <= i < |lines| ==> '\n' !in Reworked(name, lines, 0)[i]
  {
    forall i | 0 <= i < |lines|
      ensures '\n' !in Reworked(name, lines, 0)[i]
    {
      ReworkedAt(name, lines, i);
      EncodeLineNoNewline(name, CountComments(lines[..i]), lines[i]);
    }
  }

  lemma EncodeLineNoNewline(name: string, n: nat, line: string)
    requires '\n' !in name && '\n' !in line
    ensures '\n' !in EncodeLine(name, n, line)
  {
    if IsComment(line) {
      var text := line[1..];
      assert '\n' !in text by {
        assert forall j :: 0 <= j < |text| ==> text[j] == line[j + 1];
      }
      var e := EscapeByChar(text);
      assert '\n' !in e;
      assert '\n' !in CommentKey(name, n);
      assert '\n' !in ": ";
    }
  }

  lemma EncodeLineNotEmpty(name: string, n: nat, line: string)
    requires line != ""
    ensures EncodeLine(name, n, line) != ""
  {
  }

  /**
    Every comment key the reworked text declares carries a number below the
    comment count, provided the plugin name holds no colon and no ordinary
    line looks like a disguised comment.
   */
  lemma DeclaredCommentBelowCount(name: string, lines: seq<string>, i: nat, j: nat)
    requires ':' !in name
    requires forall k :: 0 <= k < |lines| && !IsComment(lines[k]) ==> !IsDisguised(name, lines[k])
    requires j < |lines| && StartsWith(Reworked(name, lines, 0)[j], CommentKey(name, i) + ": ")
    ensures i < CountComments(lines)
  {
    ReworkedAt(name, lines, j);
    EncodedKeyNumber(name, lines[j], CountComments(lines[..j]), i);
    CommentBelowCount(lines, j);
  }

  /** A line whose encoding declares the key numbered `i` is a comment, and it was given number `i`. */
  lemma EncodedKeyNumber(name: string, line: string, m: nat, i: nat)
    requires ':' !in name
    requires !IsComment(line) ==> !IsDisguised(name, line)
    requires StartsWith(EncodeLine(name, m, line), CommentKey(name, i) + ": ")
    ensures IsComment(line) && i == m
  {
    var e := EncodeLine(name, m, line);
    var key := CommentKey(name, i);
    StartsWithConcat(e, key + ":", " ");
    StartsWithConcat(e, key, ":");
    StartsWithTransitive(e, key, CommentMarker(name));
    assert IsComment(line);
    EncodedKeyColon(CommentKey(name, m), EscapeByChar(line[1..]));
    CommentKeyPrefixUnique(e, name, i, m);
  }

  lemma EncodedKeyColon(key: string, t: string)
    ensures StartsWith(key + ": " + t, key + ":")
  {
    assert (key + ": " + t)[..|key| + 1] == key + ":";
  }
}

=== FILE: strings.dfy ===
/**
  The handful of java.lang.String operations the comment shim relies on,
  written over Dafny strings (sequences of characters): literal `replace`,
  `replaceFirst` with a literal pattern, `indexOf`, `split` on a single
  character, `startsWith`, and the decimal rendering of a non-negative int.
 */
module Strings {

  /** `s.startsWith(p)`. */
  predicate StartsWith(s: string, p: string) {
    |p| <= |s| && s[..|p|] == p
  }

  lemma StartsWithTransitive(s: string, p: string, q: string)
    requires StartsWith(s, p) && StartsWith(p, q)
    ensures StartsWith(s, q)
  {
    assert s[..|q|] == s[..|p|][..|q|];
  }

  lemma StartsWithConcat(s: string, a: string, b: string)
    requires StartsWith(s, a + b)
    ensures StartsWith(s, a)
  {
    assert (a + b)[..|a|] == a;
    StartsWithTransitive(s, a + b, a);
  }

  /** True iff `p` occurs somewhere in `s`: at its front or further on. */
  predicate Contains(s: string, p: string)
    decreases |s|
  {
    StartsWith(s, p) || (s != [] && Contains(s[1..], p))
  }

  /**
    `s.replace(pat, rep)` for a non-empty target: occurrences are found left
    to right and do not overlap; text produced by `rep` is never rescanned.
   */
  function Replace(s: string, pat: string, rep: string): (r: string)
    requires pat != []
    ensures |pat| == 1 && pat[0] !in s ==> r == s
    ensures |pat| == 1 && pat[0] !in rep ==> pat[0] !in r
    decreases |s|
  {
    if StartsWith(s, pat) then rep + Replace(s[|pat|..], pat, rep)
    else if s == [] then []
    else [s[0]] + Replace(s[1..], pat, rep)
  }

  /** Text in which the target's first character never appears is left as it is. */
  lemma {:induction false} ReplaceAbsent(s: string, pat: string, rep: string)
    requires pat != [] && pat[0] !in s
    ensures Replace(s, pat, rep) == s
    decreases |s|
  {
    if s != [] {
      assert s[0] != pat[0];
      ReplaceAbsent(s[1..], pat, rep);
      assert [s[0]] + s[1..] == s;
    }
  }

  /** A first character that cannot begin the target survives a replacement. */
  lemma ReplaceKeepsHead(s: string, pat: string, rep: string)
    requires pat != [] && |s| > 0 && s[0] != pat[0]
    ensures |Replace(s, pat, rep)| > 0 && Replace(s, pat, rep)[0] == s[0]
  {
  }

  /**
    Replacing a single character works character by character: every
    occurrence of `a` becomes `b`, everything else stays where it was.
   */
  lemma {:induction false} ReplaceCharPointwise(s: string, a: char, b: char)
    ensures |Replace(s, [a], [b])| == |s|
    ensures forall i :: 0 <= i < |s| ==>
      Replace(s, [a], [b])[i] == (if s[i] == a then b else s[i])
    decreases |s|
  {
    if s != [] {
      ReplaceCharPointwise(s[1..], a, b);
      assert StartsWith(s, [a]) <==> s[0] == a;
      if s[0] == a {
        assert s[|[a]|..] == s[1..];
      }
    }
  }

  /** Replacing a single character distributes over concatenation. */
  lemma {:induction false} ReplaceCharAppend(u: string, v: string, a: char, rep: string)
    ensures Replace(u + v, [a], rep) == Replace(u, [a], rep) + Replace(v, [a], rep)
    decreases |u|
  {
    if u == [] {
      assert u + v == v;
    } else {
      var w := u + v;
      assert w[0] == u[0];
      assert w[1..] == u[1..] + v;
      assert StartsWith(w, [a]) <==> StartsWith(u, [a]);
      ReplaceCharAppend(u[1..], v, a, rep);
      if StartsWith(u, [a]) {
        assert w[|[a]|..] == w[1..];
        assert u[|[a]|..] == u[1..];
      }
    }
  }

  /**
    A prefix `u` in which no occurrence of the target starts is copied
    unchanged, and the replacement continues on what follows it.
   */
  lemma {:induction false} ReplaceSkipsPrefix(u: string, v: string, pat: string, rep: string)
    requires pat != []
    requires forall i :: 0 <= i < |u| ==> !StartsWith((u + v)[i..], pat)
    ensures Replace(u + v, pat, rep) == u + Replace(v, pat, rep)
    decreases |u|
  {
    if u == [] {
      assert u + v == v;
    } else {
      var w := u + v;
      var w' := u[1..] + v;
      assert w[0..] == w;
      assert !StartsWith(w, pat);
      assert w[1..] == w';
      assert Replace(w, pat, rep) == [u[0]] + Replace(w', pat, rep);
      forall i | 0 <= i < |u[1..]|
        ensures !StartsWith(w'[i..], pat)
      {
        assert w'[i..] == w[i + 1..];
      }
      ReplaceSkipsPrefix(u[1..], v, pat, rep);
      assert u == [u[0]] + u[1..];
    }
  }

  /** An occurrence at any position makes the text contain the pattern. */
  lemma {:induction false} ContainsAt(s: string, p: string, j: nat)
    requires j <= |s| && StartsWith(s[j..], p)
    ensures Contains(s, p)
    decreases j
  {
    if j > 0 {
      assert s[1..][j - 1..] == s[j..];
      ContainsAt(s[1..], p, j - 1);
    } else {
      assert s[0..] == s;
    }
  }

  /** `s.replaceFirst(pat, rep)` for a pattern without regular-expression meta-characters. */
  function ReplaceFirst(s: string, pat: string, rep: string): (r: string)
    requires pat != []
    ensures !Contains(s, pat) ==> r == s
    ensures StartsWith(s, pat) ==> r == rep + s[|pat|..]
    decreases |s|
  {
    if StartsWith(s, pat) then rep + s[|pat|..]
    else if s == [] then []
    else [s[0]] + ReplaceFirst(s[1..], pat, rep)
  }

  /**
    When the pattern occurs, `replaceFirst` replaces exactly the occurrence
    `indexOf` finds and copies the text around it.
   */
  lemma {:induction false} ReplaceFirstAtIndexOf(s: string, pat: string, rep: string)
    requires pat != [] && Contains(s, pat)
    ensures 0 <= IndexOf(s, pat) && IndexOf(s, pat) + |pat| <= |s|
    ensures ReplaceFirst(s, pat, rep) ==
      s[..IndexOf(s, pat)] + rep + s[IndexOf(s, pat) + |pat|..]
  {
    var i := IndexOf(s, pat);
    assert 0 <= i && i + |pat| <= |s| && ReplaceFirst(s, pat, rep) == s[..i] + rep + s[i + |pat|..] by {
      ReplaceFirstAt(s, pat, rep, i);
    }
  }

  /** `replaceFirst` replaces the occurrence at `i` when none starts before it. */
  lemma {:induction false} ReplaceFirstAt(s: string, pat: string, rep: string, i: nat)
    requires pat != [] && i + |pat| <= |s| && StartsWith(s[i..], pat)
    requires forall j :: 0 <= j < i ==> !StartsWith(s[j..], pat)
    ensures ReplaceFirst(s, pat, rep) == s[..i] + rep + s[i + |pat|..]
    decreases i
  {
    assert s[0..] == s;
    if i == 0 {
      assert s[..0] + rep + s[0 + |pat|..] == rep + s[|pat|..];
    } else {
      var t := s[1..];
      forall j | 0 <= j < i - 1
        ensures !StartsWith(t[j..], pat)
      {
        assert t[j..] == s[j + 1..];
      }
      assert t[i - 1..] == s[i..];
      ReplaceFirstAt(t, pat, rep, i - 1);
      ReplaceFirstTail(s, pat, rep, i - 1);
    }
  }

  /** One step of `replaceFirst` past a first character that does not start the pattern. */
  lemma ReplaceFirstTail(s: string, pat: string, rep: string, k: nat)
    requires pat != [] && s != [] && !StartsWith(s, pat) && k + |pat| < |s|
    requires ReplaceFirst(s[1..], pat, rep) == s[1..][..k] + rep + s[1..][k + |pat|..]
    ensures ReplaceFirst(s, pat, rep) == s[..k + 1] + rep + s[k + 1 + |pat|..]
  {
    var t := s[1..];
    assert ReplaceFirst(s, pat, rep) == [s[0]] + ReplaceFirst(t, pat, rep);
    ConsSlices(s, k, |pat|);
    ConsAssoc(s[0], t[..k], rep, t[k + |pat|..]);
  }

  lemma ConsAssoc(x: char, a: string, b: string, c: string)
    ensures [x] + (a + b + c) == [x] + a + b + c
  {
  }

  lemma ConsSlices(s: string, k: nat, n: nat)
    requires k + n < |s|
    ensures s[..k + 1] == [s[0]] + s[1..][..k]
    ensures s[k + 1 + n..] == s[1..][k + n..]
  {
  }

  /**
    `s.indexOf(p)`: the first position at which `p` occurs, or -1 when it
    does not occur at all.
   */
  function IndexOf(s: string, p: string): (r: int)
    ensures r == -1 || (0 <= r <= |s| && StartsWith(s[r..], p))
    ensures r == -1 <==> !Contains(s, p)
    ensures r >= 0 ==> forall i :: 0 <= i < r ==> !StartsWith(s[i..], p)
    decreases |s|
  {
    if StartsWith(s, p) then 0
    else if s == [] then -1
    else
      var k := IndexOf(s[1..], p);
      assert s[0..] == s;
      if k == -1 then -1
      else
        assert forall i :: 0 < i <= k ==> s[1..][i - 1..] == s[i..];
        k + 1
  }

  /** When `x` holds no colon, the first ": " in `x + ": " + y` is the one after `x`. */
  lemma IndexOfSeparator(x: string, y: string)
    requires ':' !in x
    ensures IndexOf(x + ": " + y, ": ") == |x|
  {
    var s := x + ": " + y;
    assert s[|x|..][..2] == ": ";
    ContainsAt(s, ": ", |x|);
    forall i | 0 <= i < |x|
      ensures !StartsWith(s[i..], ": ")
    {
      assert s[i..][0] == x[i];
    }
  }

  /**
    All segments of `s` between occurrences of `d`, empty ones included:
    the segments joined back with `d` give `s`.
   */
  function SplitAll(s: string, d: char): (r: seq<string>)
    ensures |r| >= 1
    ensures forall i :: 0 <= i < |r| ==> d !in r[i]
    ensures Join(r, d) == s
    decreases |s|
  {
    if s == [] then [""]
    else if s[0] == d then
      var rest := SplitAll(s[1..], d);
      assert ([""] + rest)[1..] == rest;
      [""] + rest
    else
      var rest := SplitAll(s[1..], d);
      var r := [[s[0]] + rest[0]] + rest[1..];
      assert r[1..] == rest[1..];
      r
  }

  /** The strings of `ls` with `d` between consecutive ones. */
  function Join(ls: seq<string>, d: char): string
    requires |ls| >= 1
  {
    if |ls| == 1 then ls[0] else ls[0] + [d] + Join(ls[1..], d)
  }

  /** Drops the empty strings at the end of `ls`. */
  function DropTrailingEmpty(ls: seq<string>): (r: seq<string>)
    ensures |r| <= |ls| && r == ls[..|r|]
    ensures |r| == 0 || r[|r| - 1] != ""
    ensures forall i :: |r| <= i < |ls| ==> ls[i] == ""
    decreases |ls|
  {
    if |ls| > 0 && ls[|ls| - 1] == "" then DropTrailingEmpty(ls[..|ls| - 1]) else ls
  }

  /**
    `s.split(d)` with Java's limit-0 semantics: a string without `d` is
    returned whole (so "" gives one empty segment), otherwise the segments
    are returned with trailing empty ones removed.
   */
  function JavaSplit(s: string, d: char): (r: seq<string>)
    ensures forall i :: 0 <= i < |r| ==> d !in r[i]
    ensures d !in s ==> r == [s]
    ensures d in s ==> |r| == 0 || r[|r| - 1] != ""
    ensures d in s ==>
      && |r| <= |SplitAll(s, d)|
      && r == SplitAll(s, d)[..|r|]
      && forall i :: |r| <= i < |SplitAll(s, d)| ==> SplitAll(s, d)[i] == ""
  {
    if d !in s then [s] else DropTrailingEmpty(SplitAll(s, d))
  }

  /** What a StringBuilder holds after appending each line followed by "\n". */
  function Terminated(ls: seq<string>): string {
    if ls == [] then "" else ls[0] + "\n" + Terminated(ls[1..])
  }

  /** Text built by terminating lines is empty or ends in a line break. */
  lemma {:induction false} TerminatedEndsLine(ls: seq<string>)
    ensures Terminated(ls) == "" || Terminated(ls)[|Terminated(ls)| - 1] == '\n'
    decreases |ls|
  {
    if ls != [] {
      TerminatedEndsLine(ls[1..]);
    }
  }

  lemma {:induction false} TerminatedSnoc(ls: seq<string>, x: string)
    ensures Terminated(ls + [x]) == Terminated(ls) + x + "\n"
    decreases |ls|
  {
    if ls == [] {
      assert ls + [x] == [x];
    } else {
      assert (ls + [x])[1..] == ls[1..] + [x];
      TerminatedSnoc(ls[1..], x);
    }
  }

  lemma {:induction false} SplitAllSegment(x: string, y: string, d: char)
    requires d !in x
    ensures SplitAll(x + [d] + y, d) == [x] + SplitAll(y, d)
    decreases |x|
  {
    var s := x + [d] + y;
    if x == [] {
      assert s[1..] == y;
    } else {
      assert s[1..] == x[1..] + [d] + y;
      SplitAllSegment(x[1..], y, d);
      assert [x[0]] + x[1..] == x;
    }
  }

  lemma {:induction false} SplitAllTerminated(ls: seq<string>)
    requires forall i :: 0 <= i < |ls| ==> '\n' !in ls[i]
    ensures SplitAll(Terminated(ls), '\n') == ls + [""]
    decreases |ls|
  {
    if ls != [] {
      SplitAllTerminated(ls[1..]);
      SplitAllSegment(ls[0], Terminated(ls[1..]), '\n');
      assert ls[0] + "\n" + Terminated(ls[1..]) == ls[0] + ['\n'] + Terminated(ls[1..]);
      assert [ls[0]] + (ls[1..] + [""]) == ls + [""];
    }
  }

  /**
    Splitting what was built line by line gives the lines back, provided no
    line holds a newline and the last one is not empty (Java's split drops
    trailing empty segments).
   */
  lemma SplitTerminated(ls: seq<string>)
    requires |ls| > 0 && ls[|ls| - 1] != ""
    requires forall i :: 0 <= i < |ls| ==> '\n' !in ls[i]
    ensures JavaSplit(Terminated(ls), '\n') == ls
  {
    SplitAllTerminated(ls);
    var t := Terminated(ls);
    assert t[|ls[0]|] == '\n';
    var all := ls + [""];
    assert all[..|all| - 1] == ls;
    assert DropTrailingEmpty(all) == DropTrailingEmpty(ls);
  }

  /** The decimal digit for `d`. */
  function DigitChar(d: nat): (c: char)
    requires d < 10
    ensures '0' <= c <= '9'
  {
    ('0' as int + d) as char
  }

  /** Java's decimal rendering of a non-negative int, as in `"_COMMENT_" + n`. */
  function NatToString(n: nat): (r: string)
    ensures |r| > 0
    ensures forall i :: 0 <= i < |r| ==> '0' <= r[i] <= '9'
    decreases n
  {
    if n < 10 then [DigitChar(n)] else NatToString(n / 10) + [DigitChar(n % 10)]
  }

  /** Reads a string of decimal digits back as a number. */
  function ParseDigits(s: string): nat
    requires forall i :: 0 <= i < |s| ==> '0' <= s[i] <= '9'
    decreases |s|
  {
    if s == [] then 0
    else ParseDigits(s[..|s| - 1]) * 10 + (s[|s| - 1] as int - '0' as int)
  }

  /** The decimal rendering is read back as the number it renders. */
  lemma {:induction false} ParseNatToString(n: nat)
    ensures ParseDigits(NatToString(n)) == n
    decreases n
  {
    var s := NatToString(n);
    if n >= 10 {
      ParseNatToString(n / 10);
      assert s[..|s| - 1] == NatToString(n / 10);
    }
  }

  /** Distinct numbers have distinct decimal renderings. */
  lemma NatToStringInjective(m: nat, n: nat)
    ensures NatToString(m) == NatToString(n) ==> m == n
  {
    ParseNatToString(m);
    ParseNatToString(n);
  }
}

=== FILE: wrappers.dfy ===
/** Failure-carrying datatypes used in place of Java's null and exceptions. */
module Wrappers {

  /** A value that may be absent; stands for a Java reference that may be null. */
  datatype Option<+T> = None | Some(value: T)

  /** Why an operation was refused; stands for the exception the Java code throws. */
  datatype Error =
    | InvalidFileName        // IllegalArgumentException: a null or empty file name
    | InvalidConfiguration   // InvalidConfigurationException: text the YAML library rejects

  /** Either a value or the error the Java code would have thrown instead. */
  datatype Result<+T> = Ok(value: T) | Err(error: Error)
}
